=== FILE: README.md ===
# GoDaddy DNS to Terraform: the grouping and rendering core

This project models the conversion engine of `godaddy_dns_to_gcp_terraform.py`.
The engine takes the flat list of DNS records a GoDaddy zone holds and emits a
Terraform configuration for a Google Cloud DNS managed zone. It

- groups the records by type and, within each type, by host name, both levels
  in first-occurrence order (`group_records_by_type_name`);
- builds names: the zone identifier (`zone_url_to_name`), the resource
  identifier (`sanitize_tf_resource_name`) and the record names and rrdata
  values (`godaddy_to_url`);
- renders each group as one `google_dns_record_set` declaration, with one
  renderer each for A, CNAME, MX and TXT. The renderers share the TTL policy
  `get_ttl`, and TXT values are cut into 255-character strings by
  `convert_data_for_TXT`;
- writes the `google_dns_managed_zone` stanza first, then all A, CNAME, MX and
  TXT declarations in that order. It reports every record type it does not
  know, except NS (`export_godaddy_dns_to_tf_file`).

The model is pure:

- records are a typed datatype (`Records.DnsRecord`), and the MX priority is an
  `Option<int>`;
- Python's insertion-ordered dicts are association lists of `Grouping.Group`;
- the export is a function that returns either an error or an `Output` holding
  the text, the structured declarations and the warnings;
- a declaration (`Render.RecordSet`) records its kind, host, zone, TTL and
  rrdata items. The formatter derives the resource label, the record name and
  the `managed_zone` reference from the host and the zone;
- the exceptions the original raises become `Render.RenderError` values:
  `EmptyGroup` for `[0]` on an empty list, `MultipleCname` for the
  `NotImplementedError`, and `MissingPriority` for the `KeyError` on
  `r["priority"]`;
- logged warnings become `Render.Warning` values, returned in the order they
  are logged.

`get_ttl` takes `list(set(...))[0]`, whose result depends on Python's set
iteration order. That order depends on the TTL values and on the order in
which they are inserted, so the model makes the choice a parameter `pick`
that maps the group's list of TTLs, in group order, to some member of it
(`Render.IsChoice`). So every contract holds whatever element Python picks,
and two groups with the same TTLs in different orders may get different
choices.

Modules, one file each:

- `Results` (results.dfy): Option/Result, and `Collect`, which keeps the first failure of a list of results.
- `Text` (text.dfy): replace, rstrip, join, integer to decimal.
- `Names` (names.dfy): sanitisers and `godaddy_to_url`.
- `Grouping` (grouping.dfy): insertion-ordered grouping.
- `Records` (records.dfy): the record type and the two-level grouping.
- `MxOrder` (mx.dfy): the stable priority sort.
- `TxtChunking` (txt.dfy): `convert_data_for_TXT`.
- `Render` (render.dfy): zone stanza, TTL, the four renderers.
- `Export` (export.dfy): section order, failures, warnings.

## Model

All source paths are in `godaddy_dns_to_gcp_terraform.py`.

| member | source | states |
|---|---|---|
| Names.ZoneUrlToName | godaddy_dns_to_gcp_terraform.py:13-19 | The zone identifier holds no dot. It is exactly as long as the zone with its trailing dots stripped. Each of its characters is the zone's character at that position, with a dot turned into a dash. |
| Names.ZoneUrlToNameExample | godaddy_dns_to_gcp_terraform.py:16-17 | The docstring example: `"mydomain.com."` gives `"mydomain-com"`. |
| Names.ZoneUrlToNameTwoLabels | godaddy_dns_to_gcp_terraform.py:13-19 | A zone of two dot-free labels with a trailing dot gives the two labels joined by a dash. |
| Names.ZoneUrlToNameIdempotent | godaddy_dns_to_gcp_terraform.py:13-19 | Applying the zone sanitiser to its own output changes nothing. |
| Names.SanitizeTfResourceName | godaddy_dns_to_gcp_terraform.py:22-24 | The resource identifier holds neither `.` nor `_`. It is shorter than the input by exactly the number of underscores: dots are replaced, underscores are deleted. |
| Names.SanitizeChar | godaddy_dns_to_gcp_terraform.py:24 | Per character: `.` becomes `-`, `_` disappears, every other character is kept. |
| Names.SanitizeAppend | godaddy_dns_to_gcp_terraform.py:24 | Sanitising a concatenation sanitises each part. With SanitizeChar this fixes the output on every string. |
| Names.SanitizeFixpoint | godaddy_dns_to_gcp_terraform.py:22-24 | A name is left unchanged exactly when it holds neither `.` nor `_`. |
| Names.SanitizeIdempotent | godaddy_dns_to_gcp_terraform.py:22-24 | The resource sanitiser is idempotent. |
| Names.SanitizeMergesUnderscore | godaddy_dns_to_gcp_terraform.py:24 | Names that differ only by one underscore sanitise to the same identifier. |
| Names.ZoneRef | godaddy_dns_to_gcp_terraform.py:55-58 | The zone reference is the literal zone, or the `${google_dns_managed_zone.<zone id>.dns_name}` interpolation when a Terraform variable is asked for. |
| Names.GodaddyToUrl | godaddy_dns_to_gcp_terraform.py:42-69 | `@` gives exactly the zone reference, whatever the flags. Otherwise an rrdata TXT value is returned unchanged, and any other rrdata value gets one `.` appended. A record name is the label, a dot and the zone reference. |
| Names.RecordNameInjective | godaddy_dns_to_gcp_terraform.py:61-69 | Two host labels give the same record name only if they are equal. |
| Names.RecordNameInZone | godaddy_dns_to_gcp_terraform.py:61-69 | A record name ends with the zone reference. A non-apex record name starts with its label and a dot. |
| Render.ZoneStanza | godaddy_dns_to_gcp_terraform.py:27-39 | The stanza is, in order and with nothing else: the `google_dns_managed_zone` resource header named by the zone identifier, the `name` line holding that identifier, the `dns_name` line holding the zone with a trailing dot, the `description` line naming the zone followed by a blank line, and public visibility with the closing brace. The identifier holds no dot. |
| Render.ZoneReferences | godaddy_dns_to_gcp_terraform.py:27-39 | The identifier the stanza declares is the one the `dns_name` interpolation of record names (line 56) and the `managed_zone` line of every declaration in the zone (line 92, found right after the declaration's name) refer to. |
| Render.GetTtl | godaddy_dns_to_gcp_terraform.py:72-78 | An empty group has no TTL. A non-empty group gets the TTL of one of its records. The conflict warning is raised exactly when two records disagree. A uniform group gets its common TTL. |
| Render.TtlBlock | godaddy_dns_to_gcp_terraform.py:89-97 | A block declares the group's host in the zone. Its TTL is resolved as `get_ttl` does it, with one `TtlConflict` warning naming the chosen TTL exactly when the records disagree. |
| Render.ResourceName | godaddy_dns_to_gcp_terraform.py:83 | Resource identifiers hold neither `.` nor `_`. |
| Render.ResourceNameCollision | godaddy_dns_to_gcp_terraform.py:83 | Hosts that differ only by an underscore (`_dmarc` and `dmarc`) get the same resource identifier. |
| Render.ARrdataRoundTrip | godaddy_dns_to_gcp_terraform.py:86 | An A value is written verbatim between quotes: reading the item back gives the value. |
| Render.AEntries | godaddy_dns_to_gcp_terraform.py:86-87 | There is one A item per record, in group order. Each is exactly `"<data>",` and reads back as that record's data. |
| Render.RenderA | godaddy_dns_to_gcp_terraform.py:81-98 | Fails exactly on an empty group. Otherwise it declares the first record's host, resolves the TTL as `get_ttl` does, and writes the A items of the group (`"<data>",` per record, in group order), joined by newline and tab. |
| Render.RenderCname | godaddy_dns_to_gcp_terraform.py:101-120 | Fails exactly when the group does not hold one record, reporting the count. Otherwise it uses that record's own TTL and no warning. The single rrdata is the record's value through `godaddy_to_url` in rrdata mode with the Terraform variable. |
| Render.MxPairs | godaddy_dns_to_gcp_terraform.py:128 | The `(priority, data)` pairs in group order. There are none exactly when some record has no priority. |
| Render.MxItems | godaddy_dns_to_gcp_terraform.py:131 | One item per pair, in the pairs' order; two items are equal exactly when their pairs are, so no two distinct MX targets collapse into one item. |
| Render.MxRrdataInjective | godaddy_dns_to_gcp_terraform.py:131 | The item `"<priority> <data>.",` determines its pair: the priority's decimal ends at the first space, and the data, not passed through `godaddy_to_url`, fills the rest up to the closing `.",`. |
| Render.RenderMx | godaddy_dns_to_gcp_terraform.py:123-143 | An empty group fails. A non-empty group fails exactly when a record lacks a priority. Otherwise it declares the host, resolves the TTL as `get_ttl` does, and lists the items of the priority-sorted pairs. |
| Render.RenderMxOrder | godaddy_dns_to_gcp_terraform.py:128-131 | The MX items are those of any sequence that is sorted by priority and keeps each priority's group order. |
| MxOrder.Insert | godaddy_dns_to_gcp_terraform.py:129 | Insertion keeps the sequence sorted and adds exactly the new entry (multiset). |
| MxOrder.InsertWithPriority | godaddy_dns_to_gcp_terraform.py:129 | Inserting into a sorted sequence adds the new entry behind the entries of its own priority and leaves every other priority's entries unchanged. |
| MxOrder.InsertBehind | godaddy_dns_to_gcp_terraform.py:129 | The step of insertion that passes an entry of higher priority: that entry comes after the new one, so the per-priority entries still gain only the new entry, at the end. |
| MxOrder.SortByPriority | godaddy_dns_to_gcp_terraform.py:129 | The sort result is ordered by ascending priority and is a permutation of the input. |
| MxOrder.SortIsStable | godaddy_dns_to_gcp_terraform.py:129 | For every priority, the entries of that priority keep their input order. |
| MxOrder.StableSortUnique | godaddy_dns_to_gcp_terraform.py:129 | Two sequences sorted by priority with equal per-priority subsequences are equal. |
| MxOrder.SortMatchesAnyStableSort | godaddy_dns_to_gcp_terraform.py:129 | Every stable sort by priority of the input equals this sort. |
| MxOrder.SortExample | godaddy_dns_to_gcp_terraform.py:128-131 | Priorities 20, 10, 10 with data b, a, c sort to 10 a, 10 c, 20 b. |
| TxtChunking.QuoteTxt | godaddy_dns_to_gcp_terraform.py:148 | The framed payload is `\"`, the data unescaped, then `\""`, five characters longer than the data. |
| TxtChunking.ChunksFrom | godaddy_dns_to_gcp_terraform.py:151-157 | The pieces concatenate to the rest of the payload. Every piece but the last has 255 characters, and the last has 1 to 255. |
| TxtChunking.ChunkCount | godaddy_dns_to_gcp_terraform.py:151-157 | There are `ceil(\|w\| / 255)` pieces. |
| TxtChunking.ChunkAt | godaddy_dns_to_gcp_terraform.py:153-155 | Piece `i` is the up-to-255 characters from offset `255 * i`. |
| TxtChunking.TxtLiteral | godaddy_dns_to_gcp_terraform.py:146-158 | The output starts with a quote. Its length is the framed payload plus five per delimiter, one fewer delimiter than pieces. A payload of at most 255 characters is not split. |
| TxtChunking.ConvertDataForTxt | godaddy_dns_to_gcp_terraform.py:146-158 | The loop, with its delimiter guard, produces the quote followed by the pieces joined by `\" \"`. |
| TxtChunking.TxtLiteralLayout | godaddy_dns_to_gcp_terraform.py:151-157 | Piece `i` sits at output offset `1 + 260 * i`. The delimiter follows it exactly where another piece does. |
| TxtChunking.QuotedLayout | godaddy_dns_to_gcp_terraform.py:151-157 | In any quote followed by the pieces unfolded one by one, piece `i` sits at offset `1 + 260 * i`, followed by the delimiter where another piece follows. |
| TxtChunking.TxtTwoChunks | godaddy_dns_to_gcp_terraform.py:151-157 | A framed payload of 256 to 510 characters is split once, after its 255th character. |
| Render.TxtItems | godaddy_dns_to_gcp_terraform.py:167-170 | There is one converted string per record, in group order, of the value kept verbatim, except that `@` becomes the zone. |
| Render.RenderTxt | godaddy_dns_to_gcp_terraform.py:161-182 | Fails exactly on an empty group. Otherwise it declares the host, resolves the TTL as `get_ttl` does, and joins the converted strings by `,` newline tab. |
| Render.RenderGroup | godaddy_dns_to_gcp_terraform.py:227-241 | A rendered block declares the group's host with the group's kind and logs only TTL conflicts. CNAME fails only with the count error, and a non-empty MX group only with the missing-priority error. |
| Render.RenderGroupFails | godaddy_dns_to_gcp_terraform.py:101-128 | A non-empty group fails exactly as a CNAME group of other than one record, or as an MX group with a record lacking a priority. |
| Grouping.GroupBy | godaddy_dns_to_gcp_terraform.py:197-200 | Keys are distinct and in first-occurrence order, and the groups hold as many elements as the input. |
| Grouping.GroupByMembers | godaddy_dns_to_gcp_terraform.py:197-200 | Each group is exactly the input's elements of its key, in input order, and is never empty. |
| Grouping.GroupBySelects | godaddy_dns_to_gcp_terraform.py:197-200 | Each group holds the input's elements of its key, in input order. |
| Grouping.GroupByCovers | godaddy_dns_to_gcp_terraform.py:197-200 | Every element lies in the group of its own key. |
| Records.GroupRecordsByTypeName | godaddy_dns_to_gcp_terraform.py:185-209 | Type keys are distinct, in first-occurrence order. Within a type, name keys are distinct, in the order they first occur among that type's records. |
| Records.GroupRecordsBuckets | godaddy_dns_to_gcp_terraform.py:202-207 | Every inner list is exactly the input records of its type and name, in input order, and is non-empty. |
| Records.GroupRecordsPlacement | godaddy_dns_to_gcp_terraform.py:197-207 | A record is held only under its own type and name, so with distinct keys it lies in exactly one inner list. |
| Records.GroupRecordsCovers | godaddy_dns_to_gcp_terraform.py:197-207 | Every input record lies in the inner list of its type and name. |
| Records.GroupRecordsCount | godaddy_dns_to_gcp_terraform.py:185-209 | The inner lists hold as many records as the input. |
| Records.BucketSize | godaddy_dns_to_gcp_terraform.py:204-206 | A bucket is non-empty exactly when a record matches. It holds two or more exactly when two records match. |
| Records.TypeGroupsKeys | godaddy_dns_to_gcp_terraform.py:227-241 | The groups rendered for a type are its records' names, each once, in first-occurrence order. An absent type yields none. |
| Records.TypeGroupsNonEmpty | godaddy_dns_to_gcp_terraform.py:202-207 | No name group of a type is empty. |
| Records.TypeGroupsBuckets | godaddy_dns_to_gcp_terraform.py:227-241 | Every group rendered for a type is the non-empty bucket of its name. |
| Export.RenderSection | godaddy_dns_to_gcp_terraform.py:227-241 | A type's groups render in order. The section succeeds exactly when every group does, and then holds their blocks. On failure the error is that of the first group that fails. |
| Results.Collect | godaddy_dns_to_gcp_terraform.py:227-241 | A list of results succeeds exactly when every element does, and then holds their values in order. Otherwise the error is that of the first failing element. |
| Export.UnsupportedWarnings | godaddy_dns_to_gcp_terraform.py:243-246 | One report per type outside A, CNAME, MX, NS, TXT, in the order of the types: exactly the unknown types selected from the list. Hence a type is reported exactly when it is present and unknown. |
| Export.ExportZone | godaddy_dns_to_gcp_terraform.py:224-241 | A successful export's text is the zone stanza followed by the formatted declarations. |
| Export.ExportReports | godaddy_dns_to_gcp_terraform.py:243-246 | A successful export's warnings are TTL conflicts followed by one report per unknown type, in the order the types first occur among the records. |
| Export.ReportLayout | godaddy_dns_to_gcp_terraform.py:243-246 | TTL conflicts followed by the reports for a list of types are the conflicts and then one report per unknown type of the list, in order. |
| Export.ExportFails | godaddy_dns_to_gcp_terraform.py:212-241 | The export fails exactly when two CNAME records share a name or an MX record lacks a priority. |
| Export.CnameSectionFails | godaddy_dns_to_gcp_terraform.py:231-233 | The CNAME section fails exactly when two CNAME records share a name. |
| Export.MxSectionFails | godaddy_dns_to_gcp_terraform.py:235-237 | The MX section fails exactly when an MX record has no priority. |
| Export.GroupsFail | godaddy_dns_to_gcp_terraform.py:227-241 | A section of non-empty groups fails exactly when one group is a CNAME group of other than one record or an MX group with a record lacking a priority. |
| Export.SectionFails | godaddy_dns_to_gcp_terraform.py:224-241 | The section of a type fails exactly when one of its groups fails for that reason. |
| Export.SectionSucceeds | godaddy_dns_to_gcp_terraform.py:224-241 | With no shared CNAME name and no MX record lacking a priority, the section of every kind renders. |
| Export.PlainSectionSucceeds | godaddy_dns_to_gcp_terraform.py:227-229 | The A section and the TXT section each render, since groups are never empty. |
| Export.PlainSectionsSucceed | godaddy_dns_to_gcp_terraform.py:227-229 | The A and TXT sections never fail, since groups are never empty. |
| Export.RenderAllFailure | godaddy_dns_to_gcp_terraform.py:224-241 | When A and TXT succeed, the rendering fails exactly when CNAME or MX fails. The first failing section in output order decides the error. |
| Export.ExportCnameError | godaddy_dns_to_gcp_terraform.py:231-237 | With a shared CNAME name, the CNAME error is reported even if an MX priority is missing too. |
| Export.ExportMxError | godaddy_dns_to_gcp_terraform.py:231-237 | Without a shared CNAME name, a missing MX priority is the reported error. |
| Export.ExportSections | godaddy_dns_to_gcp_terraform.py:224-241 | The declarations are the A, CNAME, MX and TXT sections, concatenated in that order. |
| Export.SectionKind | godaddy_dns_to_gcp_terraform.py:224-241 | A section declares record sets of its own kind only. |
| Export.ExportKinds | godaddy_dns_to_gcp_terraform.py:224-241 | The declarations are the four sections in order, each made of its own kind only. |
| Export.ExportOrder | godaddy_dns_to_gcp_terraform.py:224-241 | All A declarations come before all CNAME, which come before all MX, which come before all TXT. |
| Export.ExportSelect | godaddy_dns_to_gcp_terraform.py:224-241 | The declarations of one kind are exactly that kind's section. |
| Export.ExportBlocks | godaddy_dns_to_gcp_terraform.py:224-241 | Per type there is one declaration per distinct host name, in first-occurrence order, each declaring that host in the zone. An absent type contributes none. |
| Export.ExportZoneRefs | godaddy_dns_to_gcp_terraform.py:92 | Every declaration's `managed_zone` is the zone the stanza declares, and every resource identifier is free of `.` and `_`. |
| Export.BlocksInZone | godaddy_dns_to_gcp_terraform.py:83-92 | Well-formed blocks declare record sets of the zone, with resource identifiers free of `.` and `_`. |
| Export.ExportWarnings | godaddy_dns_to_gcp_terraform.py:243-246 | A type is reported exactly when a record has it and it is unknown. |
| Export.ExportSkipsNs | godaddy_dns_to_gcp_terraform.py:243-246 | NS is never reported as an unsupported type. |
| Export.ReportedTypes | godaddy_dns_to_gcp_terraform.py:243-246 | After the TTL conflicts, the type reports name exactly the present types outside A, CNAME, MX, NS, TXT. |
| Export.RenderAllWarnings | godaddy_dns_to_gcp_terraform.py:227-241 | A successful rendering of the four sections logs nothing but the TTL conflicts of `get_ttl`. |
| Export.GroupedTypes | godaddy_dns_to_gcp_terraform.py:197-207 | The grouping holds exactly the types some record has. |
| Text.IntToStringInjective | godaddy_dns_to_gcp_terraform.py:94 | Distinct TTLs and priorities are written as distinct decimals. |

## Left out

- `godaddy_dns.py` is not part of this model. It holds the HTTP request, the authentication header, rate limiting and JSON decoding. The records arrive as the `records` parameter.
- `credential_loaders.py` is not part of this model: it reads environment variables and files. `setup.py` is not part of it either: it is packaging only.
- `main`, argument parsing, logging configuration and the file output are left out. Warnings are returned values, and the file's content is the returned `text`.
- The original writes the file block by block. A CNAME or MX failure therefore leaves the zone stanza and the earlier blocks on disk. The model returns only the error, and `Export.RenderAllFailure` states which error wins.
- Python's set iteration order is not modelled. `get_ttl`'s choice is the `pick` parameter, which returns some member of the group's non-empty TTL list.
- Render.GetTtl: promises only that the chosen TTL belongs to a record of the group; it need not be the first record's TTL, because the code takes `list(set)[0]`.
- Names.SanitizeTfResourceName: deletes underscores and does not replace them with `-`, as the code does.
- TxtChunking.QuoteTxt: does not escape quotes inside TXT data, as the code does not.
- Loose dict records and the `KeyError` of a missing field are replaced by a typed record. Only the MX priority is optional; its absence is the `MissingPriority` error.
- The exact text of the log messages is not modelled. `TtlConflict` carries the type, the host and the chosen TTL; `UnsupportedType` carries the type only; the records both messages list are not carried.
- `Render.FormatRecordSet` and `Export.FormatAll` are plain formatters of the f-strings. Their contracts are carried by the structured `RecordSet` values they print, not by text-level lemmas.

=== FILE: export.dfy ===
/** `export_godaddy_dns_to_tf_file` without its file and log: the zone's
    records are grouped, the zone declaration is written first, then every
    A group, every CNAME group, every MX group and every TXT group, each
    type's groups in the order their names first occur. Types without a
    renderer are reported, except NS, whose records the managed zone
    provides itself. */
module Export {
  import opened Results
  import opened Text
  import opened Grouping
  import opened Records
  import opened Names
  import opened Render

  /** The types the exporter knows about: the four it renders and NS. */
  const KnownTypes: seq<string> := ["A", "CNAME", "MX", "NS", "TXT"]

  /** Position of a kind's section in the output. */
  function Rank(k: RecordKind): nat
  {
    match k
    case A => 0
    case CNAME => 1
    case MX => 2
    case TXT => 3
  }

  /** The renderer's result for each group, in order. */
  function RenderEach(kind: RecordKind, groups: NameGroups, zone: string,
                      pick: seq<int> -> int): (rs: seq<Result<Block, RenderError>>)
    requires IsChoice(pick)
    ensures |rs| == |groups|
    ensures forall i :: 0 <= i < |groups| ==> rs[i] == RenderGroup(kind, groups[i].members, zone, pick)
  {
    if groups == [] then []
    else [RenderGroup(kind, groups[0].members, zone, pick)] + RenderEach(kind, groups[1..], zone, pick)
  }

  /** Renders the groups of one type in order, stopping at the first group
      that cannot be rendered. */
  function RenderSection(kind: RecordKind, groups: NameGroups, zone: string,
                         pick: seq<int> -> int): (r: Result<seq<Block>, RenderError>)
    requires IsChoice(pick)
    ensures r.Success? <==>
              forall i :: 0 <= i < |groups| ==> RenderGroup(kind, groups[i].members, zone, pick).Success?
    ensures r.Success? ==> |r.value| == |groups|
    ensures r.Success? ==> forall i :: 0 <= i < |groups| ==>
              r.value[i] == RenderGroup(kind, groups[i].members, zone, pick).value
    ensures r.Failure? ==>
              exists i :: (0 <= i < |groups|
                           && RenderGroup(kind, groups[i].members, zone, pick) == Failure(r.error)
                           && forall j :: 0 <= j < i ==> RenderGroup(kind, groups[j].members, zone, pick).Success?)
  {
    Collect(RenderEach(kind, groups, zone, pick))
  }

  /** All four sections, in output order. */
  function RenderAll(records: seq<DnsRecord>, zone: string, pick: seq<int> -> int)
    : (r: Result<seq<Block>, RenderError>)
    requires IsChoice(pick)
  {
    var a :- RenderSection(A, TypeGroups(records, TypeName(A)), zone, pick);
    var c :- RenderSection(CNAME, TypeGroups(records, TypeName(CNAME)), zone, pick);
    var m :- RenderSection(MX, TypeGroups(records, TypeName(MX)), zone, pick);
    var t :- RenderSection(TXT, TypeGroups(records, TypeName(TXT)), zone, pick);
    Success(a + c + m + t)
  }

  function DeclKind(d: RecordSet): RecordKind { d.kind }

  /** The declarations of rendered blocks. */
  function Decls(blocks: seq<Block>): (ds: seq<RecordSet>)
    ensures |ds| == |blocks|
    ensures forall i :: 0 <= i < |blocks| ==> ds[i] == blocks[i].decl
  {
    seq(|blocks|, i requires 0 <= i < |blocks| => blocks[i].decl)
  }

  lemma DeclsAppend(x: seq<Block>, y: seq<Block>)
    ensures Decls(x + y) == Decls(x) + Decls(y)
  {
  }

  /** The warnings logged while rendering, in order. */
  function BlockWarnings(blocks: seq<Block>): seq<Warning>
  {
    if blocks == [] then [] else blocks[0].warnings + BlockWarnings(blocks[1..])
  }

  function IsKnownType(t: string): bool
  {
    t in KnownTypes
  }

  /** The reports for `types`: one for each type the exporter does not
      know, in the order of `types`. */
  function UnsupportedWarnings(types: seq<string>): (w: seq<Warning>)
    ensures var unknown := Select(types, IsKnownType, false);
            |w| == |unknown| && forall i :: 0 <= i < |w| ==> w[i] == UnsupportedType(unknown[i])
    ensures forall t :: UnsupportedType(t) in w <==> t in types && t !in KnownTypes
    ensures forall x :: x in w ==> x.UnsupportedType?
  {
    if types == [] then []
    else
      var rest := UnsupportedWarnings(types[1..]);
      assert forall t :: t in types <==> t == types[0] || t in types[1..];
      assert types == [types[0]] + types[1..];
      SelectCons(types[0], types[1..], IsKnownType, false);
      if types[0] in KnownTypes then rest else [UnsupportedType(types[0])] + rest
  }

  /** The Terraform text of a sequence of declarations. */
  function FormatAll(decls: seq<RecordSet>): string
  {
    if decls == [] then "" else FormatRecordSet(decls[0]) + FormatAll(decls[1..])
  }

  /** What an export produces: the configuration text, the declarations it
      is made of, and the warnings. */
  datatype Output = Output(text: string, decls: seq<RecordSet>, warnings: seq<Warning>)

  /** The export of `zone` with the registrar's `records`. `pick` stands for
      the iteration order of Python's sets in `get_ttl`. */
  function ExportZone(zone: string, records: seq<DnsRecord>, pick: seq<int> -> int)
    : (r: Result<Output, RenderError>)
    requires IsChoice(pick)
    ensures r.Success? ==> var stanza := ZoneStanza(zone);
              |stanza| <= |r.value.text| && r.value.text[..|stanza|] == stanza
              && r.value.text[|stanza|..] == FormatAll(r.value.decls)
  {
    var blocks :- RenderAll(records, zone, pick);
    var decls := Decls(blocks);
    var stanza := ZoneStanza(zone);
    PrefixOfAppend(stanza, FormatAll(decls));
    Success(Output(stanza + FormatAll(decls), decls,
                   BlockWarnings(blocks) + UnsupportedWarnings(Keys(GroupRecordsByTypeName(records)))))
  }

  /** A successful export is the zone stanza and the rendered blocks. */
  lemma ExportValue(zone: string, records: seq<DnsRecord>, pick: seq<int> -> int)
    requires IsChoice(pick)
    requires Exportable(records)
    ensures ExportZone(zone, records, pick).Success?
    ensures RenderAll(records, zone, pick).Success?
    ensures var bs := RenderAll(records, zone, pick).value;
            ExportZone(zone, records, pick).value
            == Output(ZoneStanza(zone) + FormatAll(Decls(bs)), Decls(bs),
                      BlockWarnings(bs) + UnsupportedWarnings(Keys(GroupRecordsByTypeName(records))))
  {
    ExportFails(zone, records, pick);
  }

  // ---------------------------------------------------------------------
  // When the export fails

  /** Two CNAME records share a name. */
  predicate DuplicateCname(records: seq<DnsRecord>)
  {
    exists i, j :: 0 <= i < j < |records| && records[i].rtype == TypeName(CNAME) && records[j].rtype == TypeName(CNAME)
                   && records[i].name == records[j].name
  }

  /** Some MX record carries no priority. */
  predicate MissingMxPriority(records: seq<DnsRecord>)
  {
    exists i :: 0 <= i < |records| && records[i].rtype == TypeName(MX) && records[i].priority.None?
  }

  /** Records the exporter can convert: no two CNAME records share a name
      and every MX record carries a priority. */
  predicate Exportable(records: seq<DnsRecord>)
  {
    !DuplicateCname(records) && !MissingMxPriority(records)
  }

  /** Why `RenderGroup` rejects a non-empty group of `kind`: a CNAME group
      that is not a single record, or an MX record without a priority. */
  predicate GroupFails(kind: RecordKind, members: seq<DnsRecord>)
  {
    (kind == CNAME && |members| != 1)
    || (kind == MX && exists k :: 0 <= k < |members| && members[k].priority.None?)
  }

  /** A section fails exactly when one of its groups fails. Groups of a type
      are never empty, so A and TXT never fail, a CNAME group fails when it
      holds two records or more, and an MX group when one of its records has
      no priority. */
  lemma SectionFails(records: seq<DnsRecord>, kind: RecordKind, zone: string,
                     pick: seq<int> -> int)
    requires IsChoice(pick)
    ensures var s := TypeGroups(records, TypeName(kind));
            RenderSection(kind, s, zone, pick).Failure? <==>
              exists j :: 0 <= j < |s| && GroupFails(kind, s[j].members)
  {
    TypeGroupsNonEmpty(records, TypeName(kind));
    GroupsFail(kind, TypeGroups(records, TypeName(kind)), zone, pick);
  }

  /** A section of non-empty groups fails exactly when one group fails for
      the reason `GroupFails` names. */
  lemma GroupsFail(kind: RecordKind, gs: NameGroups, zone: string, pick: seq<int> -> int)
    requires IsChoice(pick)
    requires forall j :: 0 <= j < |gs| ==> gs[j].members != []
    ensures RenderSection(kind, gs, zone, pick).Failure? <==>
              exists j :: 0 <= j < |gs| && GroupFails(kind, gs[j].members)
  {
    forall j | 0 <= j < |gs|
      ensures RenderGroup(kind, gs[j].members, zone, pick).Failure? <==> GroupFails(kind, gs[j].members)
    {
      RenderGroupFails(kind, gs[j].members, zone, pick);
    }
  }

  /** A CNAME group of several records holds two CNAME records of one name. */
  lemma CnameGroupDuplicate(records: seq<DnsRecord>, j: int)
    requires 0 <= j < |TypeGroups(records, TypeName(CNAME))|
    requires |TypeGroups(records, TypeName(CNAME))[j].members| != 1
    ensures DuplicateCname(records)
  {
    var s := TypeGroups(records, TypeName(CNAME));
    TypeGroupsBuckets(records, TypeName(CNAME), j);
    BucketSize(records, TypeName(CNAME), s[j].key);
    var a, b :| 0 <= a < b < |records| && Matches(records[a], TypeName(CNAME), s[j].key)
                                       && Matches(records[b], TypeName(CNAME), s[j].key);
  }

  /** Two CNAME records of one name put a group of several records in the
      CNAME section. */
  lemma DuplicateCnameGroup(records: seq<DnsRecord>) returns (j: int)
    requires DuplicateCname(records)
    ensures 0 <= j < |TypeGroups(records, TypeName(CNAME))|
    ensures |TypeGroups(records, TypeName(CNAME))[j].members| != 1
  {
    var s := TypeGroups(records, TypeName(CNAME));
    var a, b :| 0 <= a < b < |records| && records[a].rtype == TypeName(CNAME) && records[b].rtype == TypeName(CNAME)
                && records[a].name == records[b].name;
    TypeGroupsCover(records, a);
    j :| 0 <= j < |s| && s[j].key == records[a].name && records[a] in s[j].members;
    TypeGroupsBuckets(records, TypeName(CNAME), j);
    BucketSize(records, TypeName(CNAME), s[j].key);
    assert Matches(records[a], TypeName(CNAME), s[j].key) && Matches(records[b], TypeName(CNAME), s[j].key);
  }

  /** Some CNAME group has other than one record exactly when two CNAME
      records share a name. */
  lemma CnameGroupsDuplicate(records: seq<DnsRecord>)
    ensures (exists j :: 0 <= j < |TypeGroups(records, TypeName(CNAME))|
                         && GroupFails(CNAME, TypeGroups(records, TypeName(CNAME))[j].members))
        <==> DuplicateCname(records)
  {
    var s := TypeGroups(records, TypeName(CNAME));
    if exists j :: 0 <= j < |s| && GroupFails(CNAME, s[j].members) {
      var j :| 0 <= j < |s| && GroupFails(CNAME, s[j].members);
      CnameGroupDuplicate(records, j);
    }
    if DuplicateCname(records) {
      var j := DuplicateCnameGroup(records);
    }
  }

  /** The CNAME section fails exactly when two CNAME records share a name. */
  lemma CnameSectionFails(records: seq<DnsRecord>, zone: string, pick: seq<int> -> int)
    requires IsChoice(pick)
    ensures RenderSection(CNAME, TypeGroups(records, TypeName(CNAME)), zone, pick).Failure?
        <==> DuplicateCname(records)
  {
    SectionFails(records, CNAME, zone, pick);
    CnameGroupsDuplicate(records);
  }

  /** An MX group with a record lacking its priority holds an MX record of
      the input without one. */
  lemma MxGroupMissing(records: seq<DnsRecord>, j: int, k: int)
    requires 0 <= j < |TypeGroups(records, TypeName(MX))|
    requires 0 <= k < |TypeGroups(records, TypeName(MX))[j].members|
    requires TypeGroups(records, TypeName(MX))[j].members[k].priority.None?
    ensures MissingMxPriority(records)
  {
    var s := TypeGroups(records, TypeName(MX));
    TypeGroupsBuckets(records, TypeName(MX), j);
    BucketMembers(records, TypeName(MX), s[j].key);
    assert s[j].members[k] in Bucket(records, TypeName(MX), s[j].key);
    var i :| 0 <= i < |records| && records[i] == s[j].members[k];
  }

  /** An MX record without a priority lies in a group of the MX section. */
  lemma MissingMxGroup(records: seq<DnsRecord>) returns (j: int, k: int)
    requires MissingMxPriority(records)
    ensures 0 <= j < |TypeGroups(records, TypeName(MX))|
    ensures 0 <= k < |TypeGroups(records, TypeName(MX))[j].members|
    ensures TypeGroups(records, TypeName(MX))[j].members[k].priority.None?
  {
    var s := TypeGroups(records, TypeName(MX));
    var i :| 0 <= i < |records| && records[i].rtype == TypeName(MX) && records[i].priority.None?;
    TypeGroupsCover(records, i);
    j :| 0 <= j < |s| && s[j].key == records[i].name && records[i] in s[j].members;
    k :| 0 <= k < |s[j].members| && s[j].members[k] == records[i];
  }

  /** Some MX group has a record without priority exactly when some MX
      record of the input has none. */
  lemma MxGroupsMissing(records: seq<DnsRecord>)
    ensures (exists j :: 0 <= j < |TypeGroups(records, TypeName(MX))|
                         && GroupFails(MX, TypeGroups(records, TypeName(MX))[j].members))
        <==> MissingMxPriority(records)
  {
    var s := TypeGroups(records, TypeName(MX));
    if exists j :: 0 <= j < |s| && GroupFails(MX, s[j].members) {
      var j :| 0 <= j < |s| && GroupFails(MX, s[j].members);
      var k :| 0 <= k < |s[j].members| && s[j].members[k].priority.None?;
      MxGroupMissing(records, j, k);
    }
    if MissingMxPriority(records) {
      var j, k := MissingMxGroup(records);
    }
  }

  /** The MX section fails exactly when an MX record has no priority. */
  lemma MxSectionFails(records: seq<DnsRecord>, zone: string, pick: seq<int> -> int)
    requires IsChoice(pick)
    ensures RenderSection(MX, TypeGroups(records, TypeName(MX)), zone, pick).Failure?
        <==> MissingMxPriority(records)
  {
    SectionFails(records, MX, zone, pick);
    MxGroupsMissing(records);
  }

  /** The A and TXT sections never fail. */
  lemma PlainSectionsSucceed(records: seq<DnsRecord>, zone: string, pick: seq<int> -> int)
    requires IsChoice(pick)
    ensures RenderSection(A, TypeGroups(records, TypeName(A)), zone, pick).Success?
    ensures RenderSection(TXT, TypeGroups(records, TypeName(TXT)), zone, pick).Success?
  {
    PlainSectionSucceeds(records, A, zone, pick);
    PlainSectionSucceeds(records, TXT, zone, pick);
  }

  lemma PlainSectionSucceeds(records: seq<DnsRecord>, kind: RecordKind, zone: string,
                             pick: seq<int> -> int)
    requires IsChoice(pick)
    requires kind == A || kind == TXT
    ensures RenderSection(kind, TypeGroups(records, TypeName(kind)), zone, pick).Success?
  {
    TypeGroupsNonEmpty(records, TypeName(kind));
    GroupsFail(kind, TypeGroups(records, TypeName(kind)), zone, pick);
  }

  /** How `RenderAll` fails: the first failing section, in output order,
      decides the error. */
  lemma RenderAllFailure(records: seq<DnsRecord>, zone: string, pick: seq<int> -> int)
    requires IsChoice(pick)
    ensures var sc := RenderSection(CNAME, TypeGroups(records, TypeName(CNAME)), zone, pick);
            var sm := RenderSection(MX, TypeGroups(records, TypeName(MX)), zone, pick);
            var r := RenderAll(records, zone, pick);
            (r.Failure? <==> sc.Failure? || sm.Failure?)
            && (sc.Failure? ==> r == Failure(sc.error))
            && (sc.Success? && sm.Failure? ==> r == Failure(sm.error))
  {
    PlainSectionsSucceed(records, zone, pick);
  }

  /** A failing CNAME section reports a group of the wrong size. */
  lemma CnameSectionError(groups: NameGroups, zone: string, pick: seq<int> -> int)
    requires IsChoice(pick)
    requires RenderSection(CNAME, groups, zone, pick).Failure?
    ensures RenderSection(CNAME, groups, zone, pick).error.MultipleCname?
  {
    var e := RenderSection(CNAME, groups, zone, pick).error;
    var i :| 0 <= i < |groups| && RenderGroup(CNAME, groups[i].members, zone, pick) == Failure(e);
  }

  /** A failing MX section of non-empty groups reports a missing priority. */
  lemma MxSectionError(groups: NameGroups, zone: string, pick: seq<int> -> int)
    requires IsChoice(pick)
    requires forall i :: 0 <= i < |groups| ==> groups[i].members != []
    requires RenderSection(MX, groups, zone, pick).Failure?
    ensures RenderSection(MX, groups, zone, pick).error.MissingPriority?
  {
    var e := RenderSection(MX, groups, zone, pick).error;
    var i :| 0 <= i < |groups| && RenderGroup(MX, groups[i].members, zone, pick) == Failure(e);
  }

  /** The export fails exactly when two CNAME records share a name or an MX
      record has no priority. */
  lemma ExportFails(zone: string, records: seq<DnsRecord>, pick: seq<int> -> int)
    requires IsChoice(pick)
    ensures ExportZone(zone, records, pick).Failure?
        <==> DuplicateCname(records) || MissingMxPriority(records)
  {
    PlainSectionsSucceed(records, zone, pick);
    CnameSectionFails(records, zone, pick);
    MxSectionFails(records, zone, pick);
    RenderAllFailure(records, zone, pick);
  }

  /** The export fails with the error of its rendering. */
  lemma ExportFailure(zone: string, records: seq<DnsRecord>, pick: seq<int> -> int)
    requires IsChoice(pick)
    requires RenderAll(records, zone, pick).Failure?
    ensures ExportZone(zone, records, pick) == Failure(RenderAll(records, zone, pick).error)
  {
  }

  /** CNAME groups are rendered before MX groups, so a shared CNAME name is
      the error reported even when an MX priority is missing too. */
  lemma ExportCnameError(zone: string, records: seq<DnsRecord>, pick: seq<int> -> int)
    requires IsChoice(pick)
    requires DuplicateCname(records)
    ensures ExportZone(zone, records, pick).Failure?
    ensures ExportZone(zone, records, pick).error.MultipleCname?
  {
    PlainSectionsSucceed(records, zone, pick);
    CnameSectionFails(records, zone, pick);
    RenderAllFailure(records, zone, pick);
    CnameSectionError(TypeGroups(records, TypeName(CNAME)), zone, pick);
    ExportFailure(zone, records, pick);
  }

  /** Without a shared CNAME name, a missing MX priority is the error. */
  lemma ExportMxError(zone: string, records: seq<DnsRecord>, pick: seq<int> -> int)
    requires IsChoice(pick)
    requires !DuplicateCname(records) && MissingMxPriority(records)
    ensures ExportZone(zone, records, pick).Failure?
    ensures ExportZone(zone, records, pick).error.MissingPriority?
  {
    PlainSectionsSucceed(records, zone, pick);
    CnameSectionFails(records, zone, pick);
    MxSectionFails(records, zone, pick);
    RenderAllFailure(records, zone, pick);
    TypeGroupsNonEmpty(records, TypeName(MX));
    MxSectionError(TypeGroups(records, TypeName(MX)), zone, pick);
    ExportFailure(zone, records, pick);
  }

  // ---------------------------------------------------------------------
  // What a successful export contains

  /** Every block of a rendered section has the section's kind, refers to
      the zone's managed zone, and reports only TTL conflicts. */
  lemma SectionBlocks(kind: RecordKind, groups: NameGroups, zone: string, pick: seq<int> -> int)
    requires IsChoice(pick)
    requires RenderSection(kind, groups, zone, pick).Success?
    ensures var bs := RenderSection(kind, groups, zone, pick).value;
            forall i :: 0 <= i < |bs| ==>
              bs[i].decl.kind == kind && bs[i].decl.zone == zone
              && (forall w :: w in bs[i].warnings ==> w.TtlConflict?)
  {
  }

  /** Every group of a type starts with a record of the group's name. */
  lemma GroupHosts(records: seq<DnsRecord>, t: string)
    ensures var gs := TypeGroups(records, t);
            forall i :: 0 <= i < |gs| ==> gs[i].members != [] && gs[i].members[0].name == gs[i].key
  {
    var gs := TypeGroups(records, t);
    forall i | 0 <= i < |gs|
      ensures gs[i].members != [] && gs[i].members[0].name == gs[i].key
    {
      TypeGroupsBuckets(records, t, i);
      BucketMembers(records, t, gs[i].key);
      assert gs[i].members[0] in Bucket(records, t, gs[i].key);
    }
  }

  /** A rendered section declares one record set per group, in group order,
      each for the host of its group. */
  lemma SectionNames(kind: RecordKind, gs: NameGroups, zone: string, pick: seq<int> -> int)
    requires IsChoice(pick)
    requires RenderSection(kind, gs, zone, pick).Success?
    requires forall i :: 0 <= i < |gs| ==> gs[i].members != [] && gs[i].members[0].name == gs[i].key
    ensures var ds := Decls(RenderSection(kind, gs, zone, pick).value);
            |ds| == |gs|
            && forall i :: 0 <= i < |gs| ==>
                 ds[i].host == gs[i].key && ds[i].zone == zone
  {
  }

  /** The declarations of the section of `kind`, or none when it fails. */
  function SectionDecls(records: seq<DnsRecord>, kind: RecordKind, zone: string,
                        pick: seq<int> -> int): seq<RecordSet>
    requires IsChoice(pick)
  {
    var r := RenderSection(kind, TypeGroups(records, TypeName(kind)), zone, pick);
    if r.Success? then Decls(r.value) else []
  }

  /** With no shared CNAME name and no MX record lacking its priority,
      every section renders. */
  lemma SectionSucceeds(records: seq<DnsRecord>, kind: RecordKind, zone: string,
                        pick: seq<int> -> int)
    requires IsChoice(pick)
    requires Exportable(records)
    ensures RenderSection(kind, TypeGroups(records, TypeName(kind)), zone, pick).Success?
  {
    match kind
    case A => PlainSectionSucceeds(records, A, zone, pick);
    case CNAME => CnameSectionFails(records, zone, pick);
    case MX => MxSectionFails(records, zone, pick);
    case TXT => PlainSectionSucceeds(records, TXT, zone, pick);
  }

  /** A successful export's declarations are those of the four sections, in
      order. */
  lemma ExportSections(zone: string, records: seq<DnsRecord>, pick: seq<int> -> int)
    requires IsChoice(pick)
    requires Exportable(records)
    ensures ExportZone(zone, records, pick).Success?
    ensures ExportZone(zone, records, pick).value.decls
         == SectionDecls(records, A, zone, pick) + SectionDecls(records, CNAME, zone, pick)
            + SectionDecls(records, MX, zone, pick) + SectionDecls(records, TXT, zone, pick)
  {
    ExportFails(zone, records, pick);
    var sa := RenderSection(A, TypeGroups(records, TypeName(A)), zone, pick);
    var sc := RenderSection(CNAME, TypeGroups(records, TypeName(CNAME)), zone, pick);
    var sm := RenderSection(MX, TypeGroups(records, TypeName(MX)), zone, pick);
    var st := RenderSection(TXT, TypeGroups(records, TypeName(TXT)), zone, pick);
    assert RenderAll(records, zone, pick) == Success(sa.value + sc.value + sm.value + st.value);
    assert SectionDecls(records, A, zone, pick) == Decls(sa.value);
    assert SectionDecls(records, CNAME, zone, pick) == Decls(sc.value);
    assert SectionDecls(records, MX, zone, pick) == Decls(sm.value);
    assert SectionDecls(records, TXT, zone, pick) == Decls(st.value);
    DeclsAppend(sa.value + sc.value + sm.value, st.value);
    DeclsAppend(sa.value + sc.value, sm.value);
    DeclsAppend(sa.value, sc.value);
  }

  /** The declarations in output order carry non-decreasing section ranks. */
  predicate RankOrdered(ds: seq<RecordSet>)
  {
    forall i, j :: 0 <= i < j < |ds| ==> Rank(ds[i].kind) <= Rank(ds[j].kind)
  }

  /** Declarations all of one kind. */
  predicate AllOfKind(ds: seq<RecordSet>, k: RecordKind)
  {
    forall i :: 0 <= i < |ds| ==> ds[i].kind == k
  }

  lemma RankOrderedAppend(x: seq<RecordSet>, y: seq<RecordSet>, k: RecordKind)
    requires RankOrdered(x) && AllOfKind(y, k)
    requires forall i :: 0 <= i < |x| ==> Rank(x[i].kind) <= Rank(k)
    ensures RankOrdered(x + y)
  {
    var xy := x + y;
    forall i, j | 0 <= i < j < |xy|
      ensures Rank(xy[i].kind) <= Rank(xy[j].kind)
    {
      if j >= |x| {
        assert xy[j] == y[j - |x|];
        if i >= |x| {
          assert xy[i] == y[i - |x|];
        }
      }
    }
  }

  /** A section declares record sets of its own kind only. */
  lemma SectionKind(records: seq<DnsRecord>, kind: RecordKind, zone: string, pick: seq<int> -> int)
    requires IsChoice(pick)
    ensures AllOfKind(SectionDecls(records, kind, zone, pick), kind)
  {
    var gs := TypeGroups(records, TypeName(kind));
    if RenderSection(kind, gs, zone, pick).Success? {
      SectionBlocks(kind, gs, zone, pick);
    }
  }

  /** The declarations of a successful export, as four uniform sections. */
  lemma ExportKinds(zone: string, records: seq<DnsRecord>, pick: seq<int> -> int)
    requires IsChoice(pick)
    requires Exportable(records)
    ensures ExportZone(zone, records, pick).Success?
    ensures var da, dc, dm, dt := SectionDecls(records, A, zone, pick), SectionDecls(records, CNAME, zone, pick),
                                  SectionDecls(records, MX, zone, pick), SectionDecls(records, TXT, zone, pick);
            ExportZone(zone, records, pick).value.decls == da + dc + dm + dt
            && AllOfKind(da, A) && AllOfKind(dc, CNAME) && AllOfKind(dm, MX) && AllOfKind(dt, TXT)
  {
    ExportSections(zone, records, pick);
    SectionKind(records, A, zone, pick);
    SectionKind(records, CNAME, zone, pick);
    SectionKind(records, MX, zone, pick);
    SectionKind(records, TXT, zone, pick);
  }

  /** Four uniform sections in rank order make a rank-ordered sequence. */
  lemma FourSectionsOrdered(da: seq<RecordSet>, dc: seq<RecordSet>, dm: seq<RecordSet>,
                            dt: seq<RecordSet>)
    requires AllOfKind(da, A) && AllOfKind(dc, CNAME) && AllOfKind(dm, MX) && AllOfKind(dt, TXT)
    ensures RankOrdered(da + dc + dm + dt)
  {
    assert RankOrdered(da);
    RankOrderedAppend(da, dc, CNAME);
    RankOrderedAppend(da + dc, dm, MX);
    RankOrderedAppend(da + dc + dm, dt, TXT);
  }

  /** The output lists all A declarations, then all CNAME, then all MX, then
      all TXT declarations. */
  lemma ExportOrder(zone: string, records: seq<DnsRecord>, pick: seq<int> -> int)
    requires IsChoice(pick)
    requires Exportable(records)
    ensures ExportZone(zone, records, pick).Success?
    ensures RankOrdered(ExportZone(zone, records, pick).value.decls)
  {
    ExportKinds(zone, records, pick);
    FourSectionsOrdered(SectionDecls(records, A, zone, pick), SectionDecls(records, CNAME, zone, pick),
                        SectionDecls(records, MX, zone, pick), SectionDecls(records, TXT, zone, pick));
  }

  /** Selecting one kind from declarations of a single kind. */
  lemma SelectKind(ds: seq<RecordSet>, kind: RecordKind, k: RecordKind)
    requires AllOfKind(ds, kind)
    ensures Select(ds, DeclKind, k) == if kind == k then ds else []
  {
    if kind == k {
      SelectAll(ds, DeclKind, k);
    } else {
      SelectNone(ds, DeclKind, k);
    }
  }

  /** Selecting from four concatenated sections selects from each. */
  lemma SelectConcat(da: seq<RecordSet>, dc: seq<RecordSet>, dm: seq<RecordSet>,
                     dt: seq<RecordSet>, k: RecordKind)
    ensures Select(da + dc + dm + dt, DeclKind, k)
         == Select(da, DeclKind, k) + Select(dc, DeclKind, k)
            + Select(dm, DeclKind, k) + Select(dt, DeclKind, k)
  {
    SelectAppend(da + dc + dm, dt, DeclKind, k);
    SelectAppend(da + dc, dm, DeclKind, k);
    SelectAppend(da, dc, DeclKind, k);
  }

  /** The one of four sections that holds kind `k`. */
  function SectionOf(k: RecordKind, da: seq<RecordSet>, dc: seq<RecordSet>, dm: seq<RecordSet>,
                     dt: seq<RecordSet>): seq<RecordSet>
  {
    match k case A => da case CNAME => dc case MX => dm case TXT => dt
  }

  /** Selecting one kind from four uniform sections yields that kind's
      section. */
  lemma SelectFour(da: seq<RecordSet>, dc: seq<RecordSet>, dm: seq<RecordSet>,
                   dt: seq<RecordSet>, k: RecordKind)
    requires AllOfKind(da, A) && AllOfKind(dc, CNAME) && AllOfKind(dm, MX) && AllOfKind(dt, TXT)
    ensures Select(da + dc + dm + dt, DeclKind, k) == SectionOf(k, da, dc, dm, dt)
  {
    SelectConcat(da, dc, dm, dt, k);
    SelectKind(da, A, k);
    SelectKind(dc, CNAME, k);
    SelectKind(dm, MX, k);
    SelectKind(dt, TXT, k);
    PickOne(Select(da, DeclKind, k), Select(dc, DeclKind, k), Select(dm, DeclKind, k),
            Select(dt, DeclKind, k), k, da, dc, dm, dt);
  }

  /** Four parts of which only the one at `k`'s position is non-empty
      concatenate to that part. */
  lemma PickOne(sa: seq<RecordSet>, sc: seq<RecordSet>, sm: seq<RecordSet>, st: seq<RecordSet>,
                k: RecordKind, da: seq<RecordSet>, dc: seq<RecordSet>, dm: seq<RecordSet>,
                dt: seq<RecordSet>)
    requires sa == (if k == A then da else []) && sc == (if k == CNAME then dc else [])
    requires sm == (if k == MX then dm else []) && st == (if k == TXT then dt else [])
    ensures sa + sc + sm + st == SectionOf(k, da, dc, dm, dt)
  {
    var e: seq<RecordSet> := [];
    match k
    case A => assert da + e + e + e == da;
    case CNAME => assert e + dc + e + e == dc;
    case MX => assert e + e + dm + e == dm;
    case TXT => assert e + e + e + dt == dt;
  }

  /** The declarations of kind `k` are the section of `k`. */
  lemma ExportSelect(zone: string, records: seq<DnsRecord>, pick: seq<int> -> int, k: RecordKind)
    requires IsChoice(pick)
    requires Exportable(records)
    ensures ExportZone(zone, records, pick).Success?
    ensures RenderSection(k, TypeGroups(records, TypeName(k)), zone, pick).Success?
    ensures Select(ExportZone(zone, records, pick).value.decls, DeclKind, k)
         == Decls(RenderSection(k, TypeGroups(records, TypeName(k)), zone, pick).value)
  {
    ExportKinds(zone, records, pick);
    SelectFour(SectionDecls(records, A, zone, pick), SectionDecls(records, CNAME, zone, pick),
               SectionDecls(records, MX, zone, pick), SectionDecls(records, TXT, zone, pick), k);
    SectionSucceeds(records, k, zone, pick);
    match k
    case A =>
    case CNAME =>
    case MX =>
    case TXT =>
  }

  /** Within a type, there is one declaration per distinct host name, in the
      order the names first occur among that type's records, each declaring
      that host in the zone; absent types contribute nothing. */
  lemma ExportBlocks(zone: string, records: seq<DnsRecord>, pick: seq<int> -> int, k: RecordKind)
    requires IsChoice(pick)
    requires Exportable(records)
    ensures ExportZone(zone, records, pick).Success?
    ensures var ds := Select(ExportZone(zone, records, pick).value.decls, DeclKind, k);
            var names := FirstOccurrences(KeysOf(Select(records, RecordType, TypeName(k)), RecordName));
            |ds| == |names|
            && forall i :: 0 <= i < |names| ==>
                 ds[i].host == names[i] && ds[i].zone == zone
  {
    ExportSelect(zone, records, pick, k);
    GroupHosts(records, TypeName(k));
    SectionNames(k, TypeGroups(records, TypeName(k)), zone, pick);
    TypeGroupsKeys(records, TypeName(k));
  }

  // ---------------------------------------------------------------------
  // Warnings and references

  /** Blocks that belong to the zone and report only TTL conflicts. */
  predicate WellFormedBlocks(bs: seq<Block>, zone: string)
  {
    forall i :: 0 <= i < |bs| ==>
      bs[i].decl.zone == zone
      && (forall w :: w in bs[i].warnings ==> w.TtlConflict?)
  }

  lemma WellFormedAppend(x: seq<Block>, y: seq<Block>, zone: string)
    requires WellFormedBlocks(x, zone) && WellFormedBlocks(y, zone)
    ensures WellFormedBlocks(x + y, zone)
  {
    forall i | 0 <= i < |x + y|
      ensures (x + y)[i] == if i < |x| then x[i] else y[i - |x|]
    {
    }
  }

  lemma SectionWellFormed(kind: RecordKind, groups: NameGroups, zone: string, pick: seq<int> -> int)
    requires IsChoice(pick)
    requires RenderSection(kind, groups, zone, pick).Success?
    ensures WellFormedBlocks(RenderSection(kind, groups, zone, pick).value, zone)
  {
  }

  /** Every block of a successful rendering is well formed. */
  lemma RenderAllWellFormed(records: seq<DnsRecord>, zone: string, pick: seq<int> -> int)
    requires IsChoice(pick)
    requires RenderAll(records, zone, pick).Success?
    ensures WellFormedBlocks(RenderAll(records, zone, pick).value, zone)
  {
    var sa := RenderSection(A, TypeGroups(records, TypeName(A)), zone, pick);
    var sc := RenderSection(CNAME, TypeGroups(records, TypeName(CNAME)), zone, pick);
    var sm := RenderSection(MX, TypeGroups(records, TypeName(MX)), zone, pick);
    var st := RenderSection(TXT, TypeGroups(records, TypeName(TXT)), zone, pick);
    assert RenderAll(records, zone, pick).value == sa.value + sc.value + sm.value + st.value;
    SectionWellFormed(A, TypeGroups(records, TypeName(A)), zone, pick);
    SectionWellFormed(CNAME, TypeGroups(records, TypeName(CNAME)), zone, pick);
    SectionWellFormed(MX, TypeGroups(records, TypeName(MX)), zone, pick);
    SectionWellFormed(TXT, TypeGroups(records, TypeName(TXT)), zone, pick);
    WellFormedAppend(sa.value, sc.value, zone);
    WellFormedAppend(sa.value + sc.value, sm.value, zone);
    WellFormedAppend(sa.value + sc.value + sm.value, st.value, zone);
  }

  /** Rendering logs nothing but TTL conflicts. */
  lemma {:induction false} BlockWarningsAreTtl(bs: seq<Block>, zone: string)
    requires WellFormedBlocks(bs, zone)
    ensures forall w :: w in BlockWarnings(bs) ==> w.TtlConflict?
  {
    if bs != [] {
      BlockWarningsAreTtl(bs[1..], zone);
      assert WellFormedBlocks(bs[1..], zone) by {
        forall i | 0 <= i < |bs[1..]|
          ensures bs[1..][i] == bs[i + 1]
        {
        }
      }
    }
  }

  /** The declarations of well-formed blocks belong to the zone, and their
      resource identifiers are free of `.` and `_`. */
  lemma BlocksInZone(bs: seq<Block>, zone: string)
    requires WellFormedBlocks(bs, zone)
    ensures forall d :: d in Decls(bs) ==>
              d.zone == zone && '.' !in ResourceName(d.host, d.zone) && '_' !in ResourceName(d.host, d.zone)
  {
    forall d | d in Decls(bs)
      ensures d.zone == zone
    {
      var i :| 0 <= i < |bs| && Decls(bs)[i] == d;
    }
  }

  /** Every declaration belongs to the zone, so its `managed_zone` is the
      one the zone stanza declares, and every resource identifier is free of
      `.` and `_`. */
  lemma ExportZoneRefs(zone: string, records: seq<DnsRecord>, pick: seq<int> -> int)
    requires IsChoice(pick)
    requires Exportable(records)
    ensures ExportZone(zone, records, pick).Success?
    ensures forall d :: d in ExportZone(zone, records, pick).value.decls ==>
              d.zone == zone && '.' !in ResourceName(d.host, d.zone) && '_' !in ResourceName(d.host, d.zone)
  {
    ExportValue(zone, records, pick);
    RenderAllWellFormed(records, zone, pick);
    BlocksInZone(RenderAll(records, zone, pick).value, zone);
  }

  /** Every type held by the grouping is a type some record has, and
      conversely. */
  lemma GroupedTypes(records: seq<DnsRecord>)
    ensures forall t :: t in Keys(GroupRecordsByTypeName(records)) <==> t in KeysOf(records, RecordType)
  {
    forall t
      ensures t in Keys(GroupRecordsByTypeName(records)) <==> t in KeysOf(records, RecordType)
    {
      FirstOccurrencesMembers(KeysOf(records, RecordType), t);
    }
  }

  /** A successful rendering logs nothing but TTL conflicts. */
  lemma RenderAllWarnings(records: seq<DnsRecord>, zone: string, pick: seq<int> -> int)
    requires IsChoice(pick)
    requires RenderAll(records, zone, pick).Success?
    ensures forall w :: w in BlockWarnings(RenderAll(records, zone, pick).value) ==> w.TtlConflict?
  {
    RenderAllWellFormed(records, zone, pick);
    BlockWarningsAreTtl(RenderAll(records, zone, pick).value, zone);
  }

  /** TTL conflicts followed by the reports for `types` report exactly the
      unknown types among `present`. */
  lemma ReportedTypes(ws: seq<Warning>, conflicts: seq<Warning>, types: seq<string>, present: seq<string>)
    requires ws == conflicts + UnsupportedWarnings(types)
    requires forall w :: w in conflicts ==> w.TtlConflict?
    requires forall t :: t in types <==> t in present
    ensures forall t :: UnsupportedType(t) in ws <==> t in present && t !in KnownTypes
  {
  }

  /** A type is reported exactly when some record has it and the exporter
      does not know it. */
  lemma ExportWarnings(zone: string, records: seq<DnsRecord>, pick: seq<int> -> int)
    requires IsChoice(pick)
    requires Exportable(records)
    ensures ExportZone(zone, records, pick).Success?
    ensures forall t :: UnsupportedType(t) in ExportZone(zone, records, pick).value.warnings
                        <==> t in KeysOf(records, RecordType) && t !in KnownTypes
  {
    ExportValue(zone, records, pick);
    RenderAllWarnings(records, zone, pick);
    GroupedTypes(records);
    ReportedTypes(ExportZone(zone, records, pick).value.warnings,
                  BlockWarnings(RenderAll(records, zone, pick).value),
                  Keys(GroupRecordsByTypeName(records)), KeysOf(records, RecordType));
  }

  /** `ws` is TTL conflicts followed by one report for each of `unknown`, in
      order. */
  predicate ConflictsThenReports(ws: seq<Warning>, unknown: seq<string>)
  {
    |unknown| <= |ws|
    && (forall i :: 0 <= i < |ws| - |unknown| ==> ws[i].TtlConflict?)
    && forall i :: 0 <= i < |unknown| ==> ws[|ws| - |unknown| + i] == UnsupportedType(unknown[i])
  }

  /** The warnings of a successful export: the TTL conflicts, then one
      report per unknown type, in the order the types first occur among the
      records. */
  lemma ExportReports(zone: string, records: seq<DnsRecord>, pick: seq<int> -> int)
    requires IsChoice(pick)
    requires Exportable(records)
    ensures ExportZone(zone, records, pick).Success?
    ensures ConflictsThenReports(ExportZone(zone, records, pick).value.warnings,
                                 Select(FirstOccurrences(KeysOf(records, RecordType)), IsKnownType, false))
  {
    ExportValue(zone, records, pick);
    RenderAllWarnings(records, zone, pick);
    var types := Keys(GroupRecordsByTypeName(records));
    assert types == FirstOccurrences(KeysOf(records, RecordType));
    ReportLayout(ExportZone(zone, records, pick).value.warnings,
                 BlockWarnings(RenderAll(records, zone, pick).value), types);
  }

  /** TTL conflicts followed by the reports for `types`: the conflicts fill
      the front, one report per unknown type the back. */
  lemma ReportLayout(ws: seq<Warning>, conflicts: seq<Warning>, types: seq<string>)
    requires ws == conflicts + UnsupportedWarnings(types)
    requires forall w :: w in conflicts ==> w.TtlConflict?
    ensures ConflictsThenReports(ws, Select(types, IsKnownType, false))
  {
    ConcatReports(ws, conflicts, UnsupportedWarnings(types), Select(types, IsKnownType, false));
  }

  lemma ConcatReports(ws: seq<Warning>, front: seq<Warning>, back: seq<Warning>, unknown: seq<string>)
    requires ws == front + back
    requires forall w :: w in front ==> w.TtlConflict?
    requires |back| == |unknown| && forall i :: 0 <= i < |back| ==> back[i] == UnsupportedType(unknown[i])
    ensures ConflictsThenReports(ws, unknown)
  {
    forall i | 0 <= i < |front|
      ensures ws[i].TtlConflict?
    {
      assert ws[i] == front[i] && front[i] in front;
    }
    forall i | 0 <= i < |unknown|
      ensures ws[|ws| - |unknown| + i] == UnsupportedType(unknown[i])
    {
      assert ws[|front| + i] == back[i];
    }
  }

  /** NS records, which the managed zone provides, are never reported;
      they are not rendered either, since no renderer kind has that type
      name. */
  lemma ExportSkipsNs(zone: string, records: seq<DnsRecord>, pick: seq<int> -> int)
    requires IsChoice(pick)
    requires Exportable(records)
    ensures ExportZone(zone, records, pick).Success?
    ensures UnsupportedType("NS") !in ExportZone(zone, records, pick).value.warnings
  {
    ExportWarnings(zone, records, pick);
    assert "NS" in KnownTypes;
  }
}

=== FILE: grouping.dfy ===
/** Insertion-ordered grouping. A Python `defaultdict(list)` filled by
    appending each element under its key, then frozen with `dict(...)`, is
    modelled as an association list of groups: keys are unique and appear in
    the order they were first seen, and each group lists its elements in input
    order. */
module Grouping {

  datatype Group<K, V> = Group(key: K, members: seq<V>)

  function Keys<K, V>(g: seq<Group<K, V>>): (ks: seq<K>)
    ensures |ks| == |g|
    ensures forall i :: 0 <= i < |g| ==> ks[i] == g[i].key
  {
    seq(|g|, i requires 0 <= i < |g| => g[i].key)
  }

  predicate DistinctKeys<K(==), V>(g: seq<Group<K, V>>)
  {
    forall i, j :: 0 <= i < j < |g| ==> g[i].key != g[j].key
  }

  /** Number of elements held over all groups. */
  function TotalMembers<K, V>(g: seq<Group<K, V>>): nat
  {
    if g == [] then 0 else |g[0].members| + TotalMembers(g[1..])
  }

  /** The key of every element of `s`, in order. */
  function KeysOf<K, V>(s: seq<V>, key: V -> K): (ks: seq<K>)
    ensures |ks| == |s|
    ensures forall j :: 0 <= j < |s| ==> ks[j] == key(s[j])
  {
    seq(|s|, j requires 0 <= j < |s| => key(s[j]))
  }

  /** The elements of `s` whose key is `k`, in input order: the reference
      definition of one group. */
  function Select<K(==), V>(s: seq<V>, key: V -> K, k: K): seq<V>
  {
    if s == [] then []
    else Select(s[..|s| - 1], key, k) + (if key(s[|s| - 1]) == k then [s[|s| - 1]] else [])
  }

  /** The distinct values of `ks`, each at the position of its first
      occurrence. */
  function FirstOccurrences<K(==)>(ks: seq<K>): seq<K>
  {
    if ks == [] then []
    else
      var p := FirstOccurrences(ks[..|ks| - 1]);
      if ks[|ks| - 1] in p then p else p + [ks[|ks| - 1]]
  }

  lemma {:induction false} FirstOccurrencesMembers<K>(ks: seq<K>, k: K)
    ensures k in FirstOccurrences(ks) <==> k in ks
  {
    if ks != [] {
      FirstOccurrencesMembers(ks[..|ks| - 1], k);
      assert ks == ks[..|ks| - 1] + [ks[|ks| - 1]];
    }
  }

  /** Elements of a group all carry the group's key. */
  lemma {:induction false} SelectKeys<K, V>(s: seq<V>, key: V -> K, k: K)
    ensures forall x :: x in Select(s, key, k) ==> x in s && key(x) == k
  {
    if s != [] {
      SelectKeys(s[..|s| - 1], key, k);
      forall x | x in Select(s, key, k)
        ensures x in s && key(x) == k
      {
        if x in Select(s[..|s| - 1], key, k) {
          assert x in s[..|s| - 1];
        }
      }
    }
  }

  /** A key held by no element selects nothing; one held by some element
      selects that element. */
  lemma {:induction false} SelectMembers<K, V>(s: seq<V>, key: V -> K, k: K)
    ensures Select(s, key, k) == [] <==> k !in KeysOf(s, key)
    ensures forall j :: 0 <= j < |s| && key(s[j]) == k ==> s[j] in Select(s, key, k)
  {
    if s != [] {
      var init := s[..|s| - 1];
      SelectMembers(init, key, k);
      assert KeysOf(s, key) == KeysOf(init, key) + [key(s[|s| - 1])];
      forall j | 0 <= j < |s| && key(s[j]) == k
        ensures s[j] in Select(s, key, k)
      {
        if j < |s| - 1 {
          assert init[j] == s[j];
        }
      }
    }
  }

  /** Selecting from a concatenation selects from each part. */
  lemma {:induction false} SelectAppend<K, V>(x: seq<V>, y: seq<V>, key: V -> K, k: K)
    ensures Select(x + y, key, k) == Select(x, key, k) + Select(y, key, k)
    decreases |y|
  {
    if y == [] {
      assert x + y == x;
    } else {
      assert (x + y)[..|x + y| - 1] == x + y[..|y| - 1];
      SelectAppend(x, y[..|y| - 1], key, k);
    }
  }

  /** Selecting from a sequence with one more element in front. */
  lemma SelectCons<K, V>(x: V, s: seq<V>, key: V -> K, k: K)
    ensures Select([x] + s, key, k) == (if key(x) == k then [x] else []) + Select(s, key, k)
  {
    SelectAppend([x], s, key, k);
    assert Select([x], key, k) == Select([], key, k) + (if key(x) == k then [x] else []);
  }

  /** A sequence whose elements all carry key `k` selects itself. */
  lemma {:induction false} SelectAll<K, V>(x: seq<V>, key: V -> K, k: K)
    requires forall i :: 0 <= i < |x| ==> key(x[i]) == k
    ensures Select(x, key, k) == x
  {
    if x != [] {
      var init := x[..|x| - 1];
      assert forall i :: 0 <= i < |init| ==> init[i] == x[i];
      SelectAll(init, key, k);
    }
  }

  /** A sequence whose elements all carry other keys selects nothing. */
  lemma {:induction false} SelectNone<K, V>(x: seq<V>, key: V -> K, k: K)
    requires forall i :: 0 <= i < |x| ==> key(x[i]) != k
    ensures Select(x, key, k) == []
  {
    if x != [] {
      var init := x[..|x| - 1];
      assert forall i :: 0 <= i < |init| ==> init[i] == x[i];
      SelectNone(init, key, k);
    }
  }

  /** Position of the first `k` in `ks`, or `|ks|` when there is none. */
  function Find<K(==)>(ks: seq<K>, k: K): (i: nat)
    ensures i <= |ks|
    ensures i < |ks| ==> ks[i] == k
    ensures forall j :: 0 <= j < i ==> ks[j] != k
  {
    if ks == [] || ks[0] == k then 0 else 1 + Find(ks[1..], k)
  }

  lemma {:induction false} TotalMembersUpdate<K, V>(g: seq<Group<K, V>>, i: int, x: Group<K, V>)
    requires 0 <= i < |g|
    ensures TotalMembers(g[i := x]) == TotalMembers(g) - |g[i].members| + |x.members|
  {
    if i > 0 {
      assert g[i := x][1..] == g[1..][i - 1 := x];
      TotalMembersUpdate(g[1..], i - 1, x);
    }
  }

  lemma {:induction false} TotalMembersSnoc<K, V>(g: seq<Group<K, V>>, x: Group<K, V>)
    ensures TotalMembers(g + [x]) == TotalMembers(g) + |x.members|
  {
    if g != [] {
      assert (g + [x])[1..] == g[1..] + [x];
      TotalMembersSnoc(g[1..], x);
    }
  }

  /** `groups[k].append(v)` on a duplicate-free association list: the group
      for `k` grows by `v` at its end, or a new group `[v]` is added after
      all existing ones. */
  function Append<K(==), V>(g: seq<Group<K, V>>, k: K, v: V): (r: seq<Group<K, V>>)
    requires DistinctKeys(g)
    ensures DistinctKeys(r)
    ensures Keys(r) == if k in Keys(g) then Keys(g) else Keys(g) + [k]
    ensures forall i :: 0 <= i < |g| ==>
              r[i].members == if g[i].key == k then g[i].members + [v] else g[i].members
    ensures k !in Keys(g) ==> r[|g|].members == [v]
    ensures TotalMembers(r) == TotalMembers(g) + 1
  {
    var i := Find(Keys(g), k);
    if i < |g| then
      TotalMembersUpdate(g, i, Group(k, g[i].members + [v]));
      g[i := Group(k, g[i].members + [v])]
    else
      TotalMembersSnoc(g, Group(k, [v]));
      g + [Group(k, [v])]
  }

  /** Single pass over `s`, appending each element under its key. Keys come
      out unique and in first-occurrence order, and no element is lost or
      duplicated. */
  function GroupBy<K(==), V>(s: seq<V>, key: V -> K): (g: seq<Group<K, V>>)
    ensures DistinctKeys(g)
    ensures Keys(g) == FirstOccurrences(KeysOf(s, key))
    ensures TotalMembers(g) == |s|
  {
    if s == [] then []
    else
      var init := s[..|s| - 1];
      assert KeysOf(init, key) == KeysOf(s, key)[..|s| - 1];
      Append(GroupBy(init, key), key(s[|s| - 1]), s[|s| - 1])
  }

  /** One append step keeps every group equal to the selection of its key. */
  lemma AppendSelects<K, V>(p: seq<Group<K, V>>, init: seq<V>, key: V -> K, x: V)
    requires DistinctKeys(p)
    requires Keys(p) == FirstOccurrences(KeysOf(init, key))
    requires forall i :: 0 <= i < |p| ==> p[i].members == Select(init, key, p[i].key)
    ensures var g := Append(p, key(x), x);
            forall i :: 0 <= i < |g| ==> g[i].members == Select(init + [x], key, g[i].key)
  {
    var s := init + [x];
    assert s[..|s| - 1] == init;
    var g := Append(p, key(x), x);
    forall i | 0 <= i < |g|
      ensures g[i].members == Select(s, key, g[i].key)
    {
      if i < |p| {
        assert Keys(g)[i] == Keys(p)[i];
        assert Select(s, key, p[i].key)
            == Select(init, key, p[i].key) + (if key(x) == p[i].key then [x] else []);
      } else {
        assert Keys(g)[i] == key(x);
        FirstOccurrencesMembers(KeysOf(init, key), key(x));
        SelectMembers(init, key, key(x));
      }
    }
  }

  /** Every group of `GroupBy` is the selection of its key, by induction
      over the single pass. */
  lemma {:induction false} GroupBySelects<K, V>(s: seq<V>, key: V -> K)
    ensures forall i :: 0 <= i < |GroupBy(s, key)| ==>
              GroupBy(s, key)[i].members == Select(s, key, GroupBy(s, key)[i].key)
  {
    if s != [] {
      var init := s[..|s| - 1];
      var x := s[|s| - 1];
      GroupBySelects(init, key);
      assert init + [x] == s;
      AppendSelects(GroupBy(init, key), init, key, x);
    }
  }

  /** Each group is exactly the input's elements with that key, in input
      order, and is never empty. */
  lemma GroupByMembers<K, V>(s: seq<V>, key: V -> K, i: int)
    requires 0 <= i < |GroupBy(s, key)|
    ensures GroupBy(s, key)[i].members == Select(s, key, GroupBy(s, key)[i].key)
    ensures GroupBy(s, key)[i].members != []
  {
    var g := GroupBy(s, key);
    GroupBySelects(s, key);
    FirstOccurrencesMembers(KeysOf(s, key), g[i].key);
    assert Keys(g)[i] == g[i].key;
    SelectMembers(s, key, g[i].key);
  }

  /** Every element of the input lands in the group of its own key. */
  lemma GroupByCovers<K, V>(s: seq<V>, key: V -> K, j: int)
    requires 0 <= j < |s|
    ensures exists i :: 0 <= i < |GroupBy(s, key)| && GroupBy(s, key)[i].key == key(s[j])
                        && s[j] in GroupBy(s, key)[i].members
  {
    var g := GroupBy(s, key);
    var k := key(s[j]);
    FirstOccurrencesMembers(KeysOf(s, key), k);
    assert k in KeysOf(s, key);
    assert k in Keys(g);
    var i :| 0 <= i < |g| && Keys(g)[i] == k;
    GroupByMembers(s, key, i);
    SelectMembers(s, key, k);
    assert s[j] in g[i].members;
  }

  /** The group of a key, if the key is present. */
  function Lookup<K(==), V>(g: seq<Group<K, V>>, k: K): (r: seq<V>)
    ensures k !in Keys(g) ==> r == []
    ensures DistinctKeys(g) ==> forall i :: 0 <= i < |g| && g[i].key == k ==> r == g[i].members
  {
    var i := Find(Keys(g), k);
    if i < |g| then g[i].members else []
  }

  /** A key with a non-empty group is held by a group of the list, the one
      `Lookup` returns. */
  lemma LookupAt<K, V>(g: seq<Group<K, V>>, k: K) returns (i: int)
    requires Lookup(g, k) != []
    ensures 0 <= i < |g| && g[i].key == k && Lookup(g, k) == g[i].members
  {
    i := Find(Keys(g), k);
  }
}

=== FILE: mx.dfy ===
/** The MX priority order: `priority_addresses.sort(key=lambda pa: pa[0])`.
    Python's list sort is stable, so entries are ordered by ascending
    priority and entries of equal priority keep their original order. The
    model sorts by stable insertion and proves that any sequence with those
    two properties is this one. */
module MxOrder {
  import opened Grouping

  /** One `(priority, data)` pair of an MX group. */
  datatype MxEntry = MxEntry(priority: int, target: string)

  predicate SortedByPriority(s: seq<MxEntry>)
  {
    forall i, j :: 0 <= i < j < |s| ==> s[i].priority <= s[j].priority
  }

  function Priority(e: MxEntry): int
  {
    e.priority
  }

  /** The entries of priority `p`, in order: the grouping's reference
      filter, keyed on the priority. */
  function WithPriority(s: seq<MxEntry>, p: int): seq<MxEntry>
  {
    Select(s, Priority, p)
  }

  lemma WithPriorityAppend(a: seq<MxEntry>, b: seq<MxEntry>, p: int)
    ensures WithPriority(a + b, p) == WithPriority(a, p) + WithPriority(b, p)
  {
    SelectAppend(a, b, Priority, p);
  }

  lemma {:induction false} WithPriorityEmpty(s: seq<MxEntry>, p: int)
    ensures WithPriority(s, p) == [] <==> forall i :: 0 <= i < |s| ==> s[i].priority != p
  {
    if s != [] {
      WithPriorityEmpty(s[..|s| - 1], p);
      assert forall i :: 0 <= i < |s| - 1 ==> s[..|s| - 1][i] == s[i];
    }
  }

  /** Puts `x` after every entry whose priority is at most its own. */
  function Insert(s: seq<MxEntry>, x: MxEntry): (r: seq<MxEntry>)
    requires SortedByPriority(s)
    ensures SortedByPriority(r)
    ensures multiset(r) == multiset(s) + multiset{x}
    ensures |r| == |s| + 1
  {
    if s == [] then [x]
    else if s[|s| - 1].priority <= x.priority then s + [x]
    else
      var init := s[..|s| - 1];
      var last := s[|s| - 1];
      assert s == init + [last];
      var front := Insert(init, x);
      forall e | e in front
        ensures e.priority <= last.priority
      {
        assert e in multiset(front);
        if e != x {
          assert e in multiset(init);
        }
      }
      front + [last]
  }

  /** Inserting `x` appends it to the entries of its own priority and leaves
      every other priority alone. */
  lemma {:induction false} InsertWithPriority(s: seq<MxEntry>, x: MxEntry, p: int)
    requires SortedByPriority(s)
    ensures WithPriority(Insert(s, x), p)
         == WithPriority(s, p) + (if x.priority == p then [x] else [])
  {
    if s == [] {
      assert WithPriority([x], p) == WithPriority([], p) + (if x.priority == p then [x] else []);
    } else if s[|s| - 1].priority <= x.priority {
      WithPriorityAppend(s, [x], p);
      assert WithPriority([x], p) == WithPriority([], p) + (if x.priority == p then [x] else []);
    } else {
      var init := s[..|s| - 1];
      var last := s[|s| - 1];
      assert s == init + [last];
      assert SortedByPriority(init);
      InsertWithPriority(init, x, p);
      assert Insert(s, x) == Insert(init, x) + [last];
      InsertBehind(init, Insert(init, x), last, x, p);
    }
  }

  /** `[e]` when `e` has priority `p`, and nothing otherwise. */
  function Only(e: MxEntry, p: int): seq<MxEntry>
  {
    if e.priority == p then [e] else []
  }

  lemma WithPrioritySnoc(a: seq<MxEntry>, e: MxEntry, p: int)
    ensures WithPriority(a + [e], p) == WithPriority(a, p) + Only(e, p)
  {
    assert (a + [e])[..|a + [e]| - 1] == a;
  }

  /** The inductive step of `InsertWithPriority`: `x` went into `front`,
      and `last`, of higher priority, follows it. */
  lemma {:induction false} InsertBehind(init: seq<MxEntry>, front: seq<MxEntry>, last: MxEntry,
                                        x: MxEntry, p: int)
    requires x.priority < last.priority
    requires WithPriority(front, p) == WithPriority(init, p) + Only(x, p)
    ensures WithPriority(front + [last], p) == WithPriority(init + [last], p) + Only(x, p)
  {
    WithPrioritySnoc(front, last, p);
    WithPrioritySnoc(init, last, p);
    // `last` outranks `x`, so at most one of them has priority `p`.
    if last.priority == p {
      assert Only(x, p) == [];
      assert WithPriority(front, p) == WithPriority(init, p);
    } else {
      assert Only(last, p) == [];
    }
  }

  /** `list.sort(key=priority)`: a stable insertion sort. The result is
      ordered by priority and a permutation of the input. */
  function SortByPriority(s: seq<MxEntry>): (r: seq<MxEntry>)
    ensures SortedByPriority(r)
    ensures multiset(r) == multiset(s)
    ensures |r| == |s|
  {
    if s == [] then []
    else
      assert s == s[..|s| - 1] + [s[|s| - 1]];
      Insert(SortByPriority(s[..|s| - 1]), s[|s| - 1])
  }

  /** The sort is stable: for every priority, the entries of that priority
      appear in the same relative order as in the input. */
  lemma {:induction false} SortIsStable(s: seq<MxEntry>, p: int)
    ensures WithPriority(SortByPriority(s), p) == WithPriority(s, p)
  {
    if s != [] {
      SortIsStable(s[..|s| - 1], p);
      InsertWithPriority(SortByPriority(s[..|s| - 1]), s[|s| - 1], p);
    }
  }

  /** A sorted sequence ends in one of its largest priorities. */
  lemma LastIsLargest(s: seq<MxEntry>, p: int)
    requires SortedByPriority(s) && s != []
    requires WithPriority(s, p) != []
    ensures p <= s[|s| - 1].priority
  {
    WithPriorityEmpty(s, p);
  }

  /** Ordering by priority and keeping every priority's relative order
      determine the result: any stable sort of the same entries agrees with
      this one. */
  lemma {:induction false} StableSortUnique(a: seq<MxEntry>, b: seq<MxEntry>)
    requires SortedByPriority(a) && SortedByPriority(b)
    requires forall p :: WithPriority(a, p) == WithPriority(b, p)
    ensures a == b
    decreases |a|
  {
    if a == [] {
      if b != [] {
        assert false;
      }
    } else if b == [] {
      WithPriorityEmpty(a, a[0].priority);
      assert false;
    } else {
      var la, lb := a[|a| - 1], b[|b| - 1];
      var ia, ib := a[..|a| - 1], b[..|b| - 1];
      assert WithPriority(a, la.priority) != [];
      assert WithPriority(b, lb.priority) != [];
      LastIsLargest(b, la.priority);
      LastIsLargest(a, lb.priority);
      var m := la.priority;
      assert lb.priority == m;
      assert WithPriority(a, m) == WithPriority(ia, m) + [la];
      assert WithPriority(b, m) == WithPriority(ib, m) + [lb];
      assert la == WithPriority(a, m)[|WithPriority(a, m)| - 1];
      assert la == lb;
      forall p
        ensures WithPriority(ia, p) == WithPriority(ib, p)
      {
        if p == m {
          assert WithPriority(ia, m) == WithPriority(a, m)[..|WithPriority(a, m)| - 1];
          assert WithPriority(ib, m) == WithPriority(b, m)[..|WithPriority(b, m)| - 1];
        } else {
          assert WithPriority(a, p) == WithPriority(ia, p);
          assert WithPriority(b, p) == WithPriority(ib, p);
        }
      }
      StableSortUnique(ia, ib);
      assert a == ia + [la] && b == ib + [lb];
    }
  }

  /** The sort agrees with every stable sort by priority. */
  lemma SortMatchesAnyStableSort(s: seq<MxEntry>, r: seq<MxEntry>)
    requires SortedByPriority(r)
    requires forall p :: WithPriority(r, p) == WithPriority(s, p)
    ensures r == SortByPriority(s)
  {
    forall p
      ensures WithPriority(r, p) == WithPriority(SortByPriority(s), p)
    {
      SortIsStable(s, p);
    }
    StableSortUnique(r, SortByPriority(s));
  }

  /** The first two entries of the documented example. */
  lemma SortPairExample()
    ensures SortByPriority([MxEntry(20, "b"), MxEntry(10, "a")]) == [MxEntry(10, "a"), MxEntry(20, "b")]
  {
    var s := [MxEntry(20, "b"), MxEntry(10, "a")];
    assert s[..1] == [MxEntry(20, "b")];
    assert SortByPriority([MxEntry(20, "b")]) == [MxEntry(20, "b")];
    assert Insert([MxEntry(20, "b")], MxEntry(10, "a")) == [MxEntry(10, "a"), MxEntry(20, "b")];
  }

  /** The documented example: priorities `[20, 10, 10]` with data
      `["b", "a", "c"]` come out as `10 a`, `10 c`, `20 b`. */
  lemma SortExample()
    ensures SortByPriority([MxEntry(20, "b"), MxEntry(10, "a"), MxEntry(10, "c")])
         == [MxEntry(10, "a"), MxEntry(10, "c"), MxEntry(20, "b")]
  {
    var s := [MxEntry(20, "b"), MxEntry(10, "a"), MxEntry(10, "c")];
    var p := [MxEntry(10, "a"), MxEntry(20, "b")];
    assert s[..2] == [MxEntry(20, "b"), MxEntry(10, "a")];
    SortPairExample();
    assert SortByPriority(s) == Insert(p, MxEntry(10, "c"));
    assert p[..1] == [MxEntry(10, "a")];
    assert Insert([MxEntry(10, "a")], MxEntry(10, "c")) == [MxEntry(10, "a"), MxEntry(10, "c")];
    assert Insert(p, MxEntry(10, "c")) == Insert([MxEntry(10, "a")], MxEntry(10, "c")) + [MxEntry(20, "b")];
  }
}

=== FILE: names.dfy ===
/** Zone and record names: the two identifier sanitisers and the composer
    that turns a registrar host label into a fully-qualified name or rrdata
    value for the generated Terraform configuration. */
module Names {
  import opened Text

  /** Registrar convention for "no sub-domain": the zone apex. */
  const Apex: string := "@"

  /** `zone_url_to_name`: the zone's Terraform identifier. Trailing dots are
      stripped and every remaining dot becomes a dash; nothing else changes. */
  function ZoneUrlToName(zone: string): (r: string)
    ensures '.' !in r
    ensures |r| == |RStripChar(zone, '.')|
    ensures forall i :: 0 <= i < |r| ==>
              r[i] == (if zone[i] == '.' then '-' else zone[i])
  {
    ReplaceChar(RStripChar(zone, '.'), '.', '-')
  }

  /** The docstring's example: `"mydomain.com."` becomes `"mydomain-com"`. */
  lemma ZoneUrlToNameExample()
    ensures ZoneUrlToName("mydomain.com.") == "mydomain-com"
  {
    ZoneUrlToNameTwoLabels("mydomain", "com");
    assert "mydomain" + "." + "com" + "." == "mydomain.com.";
    assert "mydomain" + "-" + "com" == "mydomain-com";
  }

  /** A zone of two dot-free labels written with its trailing dot becomes the
      two labels joined by a dash. */
  lemma ZoneUrlToNameTwoLabels(a: string, b: string)
    requires '.' !in a && '.' !in b && b != []
    ensures ZoneUrlToName(a + "." + b + ".") == a + "-" + b
  {
    StripOneDot(a + "." + b);
    DashJoin(a, b);
  }

  lemma StripOneDot(t: string)
    requires t != [] && t[|t| - 1] != '.'
    ensures RStripChar(t + ".", '.') == t
  {
    assert (t + ".")[..|t|] == t;
  }

  lemma DashJoin(a: string, b: string)
    requires '.' !in a && '.' !in b
    ensures ReplaceChar(a + "." + b, '.', '-') == a + "-" + b
  {
    var s, t := a + "." + b, a + "-" + b;
    var r := ReplaceChar(s, '.', '-');
    forall i | 0 <= i < |s|
      ensures r[i] == t[i]
    {
      if i < |a| {
        assert s[i] == a[i] && t[i] == a[i];
      } else if i > |a| {
        assert s[i] == b[i - |a| - 1] && t[i] == b[i - |a| - 1];
      }
    }
  }

  /** A zone identifier is already sanitised: applying the sanitiser again
      changes nothing. */
  lemma ZoneUrlToNameIdempotent(zone: string)
    ensures ZoneUrlToName(ZoneUrlToName(zone)) == ZoneUrlToName(zone)
  {
    var n := ZoneUrlToName(zone);
    assert RStripChar(n, '.') == n;
    assert ReplaceChar(n, '.', '-') == n;
  }

  /** `sanitize_tf_resource_name`: dots become dashes and underscores are
      deleted (not replaced). */
  function SanitizeTfResourceName(name: string): (r: string)
    ensures '.' !in r && '_' !in r
    ensures |r| == |name| - Count(name, '_')
  {
    var dashed := ReplaceChar(name, '.', '-');
    assert Count(dashed, '_') == Count(name, '_') by {
      ReplaceCharKeepsCount(name, '.', '-', '_');
    }
    DeleteChar(dashed, '_')
  }

  /** Replacing `a` by `b` does not change how often an unrelated `c` occurs. */
  lemma {:induction false} ReplaceCharKeepsCount(s: string, a: char, b: char, c: char)
    requires a != c && b != c
    ensures Count(ReplaceChar(s, a, b), c) == Count(s, c)
  {
    if s != [] {
      ReplaceCharKeepsCount(s[1..], a, b, c);
      assert ReplaceChar(s, a, b)[1..] == ReplaceChar(s[1..], a, b);
    }
  }

  /** `ReplaceChar` commutes with concatenation. */
  lemma {:induction false} ReplaceCharAppend(x: string, y: string, a: char, b: char)
    ensures ReplaceChar(x + y, a, b) == ReplaceChar(x, a, b) + ReplaceChar(y, a, b)
  {
  }

  /** The resource sanitiser works character by character: sanitising a
      concatenation sanitises each part. */
  lemma SanitizeAppend(x: string, y: string)
    ensures SanitizeTfResourceName(x + y)
         == SanitizeTfResourceName(x) + SanitizeTfResourceName(y)
  {
    ReplaceCharAppend(x, y, '.', '-');
    DeleteCharAppend(ReplaceChar(x, '.', '-'), ReplaceChar(y, '.', '-'), '_');
  }

  /** A name is left unchanged by the resource sanitiser exactly when it
      holds neither a dot nor an underscore. */
  lemma SanitizeFixpoint(name: string)
    ensures SanitizeTfResourceName(name) == name <==> ('.' !in name && '_' !in name)
  {
    var dashed := ReplaceChar(name, '.', '-');
    if '.' !in name && '_' !in name {
      assert dashed == name;
      DeleteCharFixpoint(name, '_');
    }
  }

  /** What the resource sanitiser does to one character: a dot becomes a
      dash, an underscore disappears, anything else is kept. With
      `SanitizeAppend` this determines the sanitiser on every string. */
  lemma SanitizeChar(c: char)
    ensures SanitizeTfResourceName([c])
         == if c == '.' then "-" else if c == '_' then "" else [c]
  {
    var dashed := ReplaceChar([c], '.', '-');
    assert dashed == [if c == '.' then '-' else c];
    assert DeleteChar(dashed, '_') == (if dashed[0] == '_' then [] else [dashed[0]]) + DeleteChar([], '_');
  }

  /** Because underscores are deleted rather than replaced, names that
      differ only by an underscore sanitise to the same identifier. */
  lemma SanitizeMergesUnderscore(x: string, y: string)
    ensures SanitizeTfResourceName(x + "_" + y) == SanitizeTfResourceName(x + y)
  {
    SanitizeAppend(x + "_", y);
    SanitizeAppend(x, "_");
    SanitizeAppend(x, y);
    SanitizeChar('_');
  }

  /** The resource sanitiser is idempotent. */
  lemma SanitizeIdempotent(name: string)
    ensures SanitizeTfResourceName(SanitizeTfResourceName(name)) == SanitizeTfResourceName(name)
  {
    SanitizeFixpoint(SanitizeTfResourceName(name));
  }

  /** The Terraform address of the managed zone whose resource identifier
      is `zoneId`. */
  function ZoneAddress(zoneId: string): string
  {
    "google_dns_managed_zone." + zoneId
  }

  /** The zone as it appears in a record: the literal zone, or a Terraform
      interpolation of the managed zone's `dns_name`. */
  function ZoneRef(zone: string, useTerraformVar: bool): (r: string)
    ensures !useTerraformVar ==> r == zone
    ensures useTerraformVar ==>
              r == "${" + ZoneAddress(ZoneUrlToName(zone)) + ".dns_name}"
  {
    if useTerraformVar then "${" + ZoneAddress(ZoneUrlToName(zone)) + ".dns_name}"
    else zone
  }

  /** `godaddy_to_url`: composes a record name (or an rrdata value) from a
      registrar host. The apex host always yields the bare zone reference;
      an rrdata value is returned as is (TXT) or made absolute with a
      trailing dot; a record name is the host followed by the zone. */
  function GodaddyToUrl(attr: string, zone: string, isRrdatas: bool, isTxtData: bool,
                        useTerraformVar: bool): (r: string)
    ensures attr == Apex ==> r == ZoneRef(zone, useTerraformVar)
    ensures attr != Apex && isRrdatas && isTxtData ==> r == attr
    ensures attr != Apex && isRrdatas && !isTxtData ==> r == attr + "."
    ensures attr != Apex && !isRrdatas ==> r == attr + "." + ZoneRef(zone, useTerraformVar)
  {
    var suffix := ZoneRef(zone, useTerraformVar);
    if attr == Apex then suffix
    else if isRrdatas then (if isTxtData then attr else attr + ".")
    else Join([attr, suffix], ".")
  }

  /** Record names are composed without loss: two labels yield the same
      fully-qualified name only if they are the same host. */
  lemma RecordNameInjective(a: string, b: string, zone: string, useTerraformVar: bool)
    requires GodaddyToUrl(a, zone, false, false, useTerraformVar)
          == GodaddyToUrl(b, zone, false, false, useTerraformVar)
    ensures a == b
  {
    var ref := ZoneRef(zone, useTerraformVar);
    if a != Apex && b != Apex {
      assert a + "." + ref == b + "." + ref;
      assert |a| == |b|;
      assert a == (a + "." + ref)[..|a|];
      assert b == (b + "." + ref)[..|b|];
    }
  }

  /** The suffix a non-apex record name carries is the zone reference, so a
      record name always lies inside the zone it is composed for. */
  lemma RecordNameInZone(host: string, zone: string, useTerraformVar: bool)
    ensures var n := GodaddyToUrl(host, zone, false, false, useTerraformVar);
            var ref := ZoneRef(zone, useTerraformVar);
            |ref| <= |n| && n[|n| - |ref|..] == ref
            && (host != Apex ==> n[..|host| + 1] == host + ".")
  {
  }
}

=== FILE: records.dfy ===
/** The registrar's DNS records and `group_records_by_type_name`: records are
    partitioned first by type, then, within a type, by host name. */
module Records {
  import opened Results
  import opened Grouping

  /** One record as the registrar returns it. `priority` is only present on
      the records that carry one (MX). */
  datatype DnsRecord = DnsRecord(rtype: string, name: string, data: string, ttl: int,
                                 priority: Option<int>)

  function RecordType(r: DnsRecord): string { r.rtype }

  function RecordName(r: DnsRecord): string { r.name }

  /** Records of one type, grouped by name. */
  type NameGroups = seq<Group<string, DnsRecord>>

  /** The two-level grouping: type -> name -> records, each level in
      first-occurrence order. */
  type Grouped = seq<Group<string, Group<string, DnsRecord>>>

  /** The records of type `t` and name `n`, in input order: the reference
      definition of one inner list. */
  function Bucket(records: seq<DnsRecord>, t: string, n: string): seq<DnsRecord>
  {
    if records == [] then []
    else
      var last := records[|records| - 1];
      Bucket(records[..|records| - 1], t, n) + (if last.rtype == t && last.name == n then [last] else [])
  }

  /** Second level of the grouping, one type group at a time. */
  function GroupNames(byType: seq<Group<string, DnsRecord>>): (g: Grouped)
    ensures |g| == |byType|
    ensures forall i :: 0 <= i < |g| ==>
              g[i].key == byType[i].key && g[i].members == GroupBy(byType[i].members, RecordName)
  {
    if byType == [] then []
    else [Group(byType[0].key, GroupBy(byType[0].members, RecordName))] + GroupNames(byType[1..])
  }

  /** `group_records_by_type_name`. Types are unique and in the order they
      first occur in the input; within a type, names are unique and in the
      order they first occur among that type's records. */
  function GroupRecordsByTypeName(records: seq<DnsRecord>): (g: Grouped)
    ensures DistinctKeys(g)
    ensures Keys(g) == FirstOccurrences(KeysOf(records, RecordType))
    ensures forall i :: 0 <= i < |g| ==> DistinctKeys(g[i].members)
    ensures forall i :: 0 <= i < |g| ==>
              Keys(g[i].members)
              == FirstOccurrences(KeysOf(Select(records, RecordType, g[i].key), RecordName))
  {
    var byType := GroupBy(records, RecordType);
    forall i | 0 <= i < |byType|
      ensures byType[i].members == Select(records, RecordType, byType[i].key)
    {
      GroupByMembers(records, RecordType, i);
    }
    GroupNames(byType)
  }

  /** Selecting by type and then by name is the bucket of that type and name. */
  lemma {:induction false} SelectSelect(records: seq<DnsRecord>, t: string, n: string)
    ensures Select(Select(records, RecordType, t), RecordName, n) == Bucket(records, t, n)
  {
    if records != [] {
      var init := records[..|records| - 1];
      var last := records[|records| - 1];
      SelectSelect(init, t, n);
      var st := Select(init, RecordType, t);
      if last.rtype == t {
        var s := st + [last];
        assert Select(records, RecordType, t) == s;
        assert s[..|s| - 1] == st;
        assert Select(s, RecordName, n) == Select(st, RecordName, n) + (if last.name == n then [last] else []);
      } else {
        assert Select(records, RecordType, t) == st;
      }
    }
  }

  /** Every inner list is exactly the records of its type and name, in input
      order, and is never empty. */
  lemma GroupRecordsBuckets(records: seq<DnsRecord>, i: int, j: int)
    requires 0 <= i < |GroupRecordsByTypeName(records)|
    requires 0 <= j < |GroupRecordsByTypeName(records)[i].members|
    ensures var grp := GroupRecordsByTypeName(records)[i];
            grp.members[j].members == Bucket(records, grp.key, grp.members[j].key)
            && grp.members[j].members != []
  {
    var g := GroupRecordsByTypeName(records);
    var byType := GroupBy(records, RecordType);
    GroupByMembers(records, RecordType, i);
    GroupByMembers(byType[i].members, RecordName, j);
    SelectSelect(records, g[i].key, g[i].members[j].key);
  }

  /** A record of type `t` and name `n`. */
  predicate Matches(r: DnsRecord, t: string, n: string)
  {
    r.rtype == t && r.name == n
  }

  /** A bucket holds only input records of its type and name. */
  lemma {:induction false} BucketMembers(records: seq<DnsRecord>, t: string, n: string)
    ensures forall x :: x in Bucket(records, t, n) ==> x in records && Matches(x, t, n)
  {
    if records != [] {
      var init := records[..|records| - 1];
      BucketMembers(init, t, n);
      forall x | x in Bucket(records, t, n)
        ensures x in records && Matches(x, t, n)
      {
        if x in Bucket(init, t, n) {
          assert x in init;
        }
      }
    }
  }

  /** A bucket is non-empty exactly when one record matches, and holds two
      records or more exactly when two different records match. */
  lemma {:induction false} BucketSize(records: seq<DnsRecord>, t: string, n: string)
    ensures |Bucket(records, t, n)| >= 1 <==>
              exists i :: 0 <= i < |records| && Matches(records[i], t, n)
    ensures |Bucket(records, t, n)| >= 2 <==>
              exists i, j :: 0 <= i < j < |records| && Matches(records[i], t, n)
                                                  && Matches(records[j], t, n)
  {
    if records != [] {
      var init := records[..|records| - 1];
      var last := |records| - 1;
      BucketSize(init, t, n);
      assert forall i :: 0 <= i < |init| ==> init[i] == records[i];
      if |Bucket(records, t, n)| >= 2 && |Bucket(init, t, n)| < 2 {
        assert Matches(records[last], t, n);
        var i :| 0 <= i < |init| && Matches(init[i], t, n);
        assert Matches(records[i], t, n) && Matches(records[last], t, n);
      }
      if exists i, j :: 0 <= i < j < |records| && Matches(records[i], t, n)
                                               && Matches(records[j], t, n) {
        var i, j :| 0 <= i < j < |records| && Matches(records[i], t, n)
                                           && Matches(records[j], t, n);
        if j < last {
          assert Matches(init[i], t, n) && Matches(init[j], t, n);
        } else {
          assert Matches(init[i], t, n);
        }
      }
    }
  }

  /** A record is only ever held under its own type and name; since the
      keys of each level are distinct, every record lies in exactly one
      inner list. */
  lemma GroupRecordsPlacement(records: seq<DnsRecord>, i: int, j: int, x: DnsRecord)
    requires 0 <= i < |GroupRecordsByTypeName(records)|
    requires 0 <= j < |GroupRecordsByTypeName(records)[i].members|
    requires x in GroupRecordsByTypeName(records)[i].members[j].members
    ensures x in records
    ensures GroupRecordsByTypeName(records)[i].key == x.rtype
    ensures GroupRecordsByTypeName(records)[i].members[j].key == x.name
  {
    var grp := GroupRecordsByTypeName(records)[i];
    GroupRecordsBuckets(records, i, j);
    BucketMembers(records, grp.key, grp.members[j].key);
  }

  /** Records held over all inner lists. */
  function RecordCount(g: Grouped): nat
  {
    if g == [] then 0 else TotalMembers(g[0].members) + RecordCount(g[1..])
  }

  lemma {:induction false} GroupNamesCount(byType: seq<Group<string, DnsRecord>>)
    ensures RecordCount(GroupNames(byType)) == TotalMembers(byType)
  {
    if byType != [] {
      GroupNamesCount(byType[1..]);
      assert GroupNames(byType)[1..] == GroupNames(byType[1..]);
    }
  }

  /** Grouping neither loses nor duplicates records. */
  lemma GroupRecordsCount(records: seq<DnsRecord>)
    ensures RecordCount(GroupRecordsByTypeName(records)) == |records|
  {
    GroupNamesCount(GroupBy(records, RecordType));
  }

  /** Every input record is found in the inner list of its own type and
      name. */
  lemma GroupRecordsCovers(records: seq<DnsRecord>, k: int)
    requires 0 <= k < |records|
    ensures exists i, j :: 0 <= i < |GroupRecordsByTypeName(records)|
                        && 0 <= j < |GroupRecordsByTypeName(records)[i].members|
                        && GroupRecordsByTypeName(records)[i].key == records[k].rtype
                        && GroupRecordsByTypeName(records)[i].members[j].key == records[k].name
                        && records[k] in GroupRecordsByTypeName(records)[i].members[j].members
  {
    var g := GroupRecordsByTypeName(records);
    var byType := GroupBy(records, RecordType);
    GroupByCovers(records, RecordType, k);
    var i :| 0 <= i < |byType| && byType[i].key == records[k].rtype && records[k] in byType[i].members;
    var k' :| 0 <= k' < |byType[i].members| && byType[i].members[k'] == records[k];
    GroupByCovers(byType[i].members, RecordName, k');
    var j :| 0 <= j < |g[i].members| && g[i].members[j].key == records[k].name
             && records[k] in g[i].members[j].members;
  }

  /** The name groups of type `t`: `type_to_name_to_records[t]`, or no groups
      when no record has that type. */
  function TypeGroups(records: seq<DnsRecord>, t: string): NameGroups
  {
    Lookup(GroupRecordsByTypeName(records), t)
  }

  /** The names of type `t` are its records' names, each once, in the order
      they first occur. */
  lemma TypeGroupsKeys(records: seq<DnsRecord>, t: string)
    ensures Keys(TypeGroups(records, t))
         == FirstOccurrences(KeysOf(Select(records, RecordType, t), RecordName))
    ensures DistinctKeys(TypeGroups(records, t))
  {
    var g := GroupRecordsByTypeName(records);
    if t in Keys(g) {
      var i :| 0 <= i < |g| && Keys(g)[i] == t;
    } else {
      FirstOccurrencesMembers(KeysOf(records, RecordType), t);
      SelectMembers(records, RecordType, t);
    }
  }

  /** Every group of type `t` is the non-empty bucket of its name. */
  lemma TypeGroupsBuckets(records: seq<DnsRecord>, t: string, j: int)
    requires 0 <= j < |TypeGroups(records, t)|
    ensures var s := TypeGroups(records, t);
            s[j].members == Bucket(records, t, s[j].key) && s[j].members != []
  {
    var i := LookupAt(GroupRecordsByTypeName(records), t);
    GroupRecordsBuckets(records, i, j);
  }

  /** No group of a type is empty. */
  lemma TypeGroupsNonEmpty(records: seq<DnsRecord>, t: string)
    ensures forall j :: 0 <= j < |TypeGroups(records, t)| ==> TypeGroups(records, t)[j].members != []
  {
    forall j | 0 <= j < |TypeGroups(records, t)|
      ensures TypeGroups(records, t)[j].members != []
    {
      TypeGroupsBuckets(records, t, j);
    }
  }

  /** Every record lies in the group of its name among the groups of its
      type. */
  lemma TypeGroupsCover(records: seq<DnsRecord>, k: int)
    requires 0 <= k < |records|
    ensures exists j :: 0 <= j < |TypeGroups(records, records[k].rtype)|
                        && TypeGroups(records, records[k].rtype)[j].key == records[k].name
                        && records[k] in TypeGroups(records, records[k].rtype)[j].members
  {
    var g := GroupRecordsByTypeName(records);
    GroupRecordsCovers(records, k);
    var i, j :| 0 <= i < |g| && 0 <= j < |g[i].members| && g[i].key == records[k].rtype
                && g[i].members[j].key == records[k].name && records[k] in g[i].members[j].members;
    assert TypeGroups(records, records[k].rtype) == g[i].members;
  }
}

=== FILE: render.dfy ===
/** The per-type renderers: each group of records sharing a type and a host
    name becomes one `google_dns_record_set` declaration, and the zone
    itself one `google_dns_managed_zone` declaration. Declarations are kept
    as structured values and turned into Terraform text by one formatter. */
module Render {
  import opened Results
  import opened Text
  import opened Names
  import opened TxtChunking
  import opened MxOrder
  import opened Records

  /** The record types that have a renderer. */
  datatype RecordKind = A | CNAME | MX | TXT

  /** The `type` attribute of the declaration: the registrar's type name. */
  function TypeName(k: RecordKind): (t: string)
    ensures t in {"A", "CNAME", "MX", "TXT"}
  {
    match k
    case A => "A"
    case CNAME => "CNAME"
    case MX => "MX"
    case TXT => "TXT"
  }

  /** The suffix of the resource label, the type name in lower case. */
  function Suffix(k: RecordKind): string
  {
    match k
    case A => "a"
    case CNAME => "cname"
    case MX => "mx"
    case TXT => "txt"
  }

  /** One `google_dns_record_set` declaration: the records of `kind` at
      `host` in `zone`. `entries` are the items of the `rrdatas` list exactly
      as written, `sep` the text between two items. The resource label, the
      record name and the managed zone are derived from `host` and `zone`
      when the declaration is written. */
  datatype RecordSet = RecordSet(kind: RecordKind, host: string, zone: string, ttl: int,
                                 entries: seq<string>, sep: string)

  /** The declaration as Terraform text: its header and name, the
      reference to the managed zone, then type, TTL and items. */
  function FormatRecordSet(d: RecordSet): string
  {
    RecordSetHead(d) + ManagedZoneLine(d.zone) + RecordSetTail(d)
  }

  function RecordSetHead(d: RecordSet): string
  {
    "\nresource \"google_dns_record_set\" \"" + ResourceName(d.host, d.zone) + "-" + Suffix(d.kind) + "\" {\n"
    + "    name = \"" + RecordUrl(d.host, d.zone) + "\"\n"
  }

  /** The `managed_zone` attribute of a declaration in `zone`. */
  function ManagedZoneLine(zone: string): string
  {
    "    managed_zone = " + ZoneAddress(ZoneUrlToName(zone)) + ".name\n"
  }

  function RecordSetTail(d: RecordSet): string
  {
    "    type = \"" + TypeName(d.kind) + "\"\n"
    + "    ttl = " + IntToString(d.ttl) + "\n"
    + "    rrdatas = [" + Join(d.entries, d.sep) + "]\n"
    + "}\n"
  }

  /** The opening line of the zone declaration: a `google_dns_managed_zone`
      resource with identifier `zoneId`. */
  function ZoneHeader(zoneId: string): string
  {
    "\nresource \"google_dns_managed_zone\" \"" + zoneId + "\" {\n"
  }

  /** The zone's `name` attribute. */
  function ZoneNameLine(zoneId: string): string
  {
    "  name = \"" + zoneId + "\"\n"
  }

  /** The zone's `dns_name` attribute: the zone made absolute. */
  function DnsNameLine(zone: string): string
  {
    "  dns_name = \"" + zone + ".\"\n"
  }

  /** The last line of the zone declaration before its closing brace. */
  const PublicVisibility: string := "  visibility = \"public\"\n"

  /** The zone's `description` attribute, followed by a blank line. */
  function DescriptionLines(zone: string): string
  {
    "  description = \"" + zone + " DNS zone. Managed by Terraform\"\n" + "\n"
  }

  /** `terraform_zone_stanza`: the header naming the zone's identifier, its
      `name` (the identifier again), its `dns_name` (the zone with a
      trailing dot), its description and a blank line, in that order, and
      finally public visibility. The identifier holds no dot. */
  function ZoneStanza(zone: string): (r: string)
    ensures InOrder(r, ZoneHeader(ZoneUrlToName(zone)), ZoneNameLine(ZoneUrlToName(zone)),
                    DnsNameLine(zone), DescriptionLines(zone), PublicVisibility + "}\n")
    ensures '.' !in ZoneUrlToName(zone)
  {
    var zoneId := ZoneUrlToName(zone);
    var h, n, dn := ZoneHeader(zoneId), ZoneNameLine(zoneId), DnsNameLine(zone);
    var description := DescriptionLines(zone);
    var tail := PublicVisibility + "}\n";
    PartsOfAppend(h, n, dn, description, tail);
    h + n + dn + description + tail
  }

  /** Every reference to the managed zone names the identifier the zone
      stanza declares: the interpolation of its `dns_name` in record names,
      and the `managed_zone` attribute of every declaration in the zone,
      which sits right after the declaration's name. */
  lemma ZoneReferences(zone: string, d: RecordSet)
    requires d.zone == zone
    ensures var id := ZoneUrlToName(zone);
            ZoneStanza(zone)[..|ZoneHeader(id)|] == ZoneHeader(id)
            && ZoneRef(zone, true) == "${" + ZoneAddress(id) + ".dns_name}"
    ensures var line := "    managed_zone = " + ZoneAddress(ZoneUrlToName(zone)) + ".name\n";
            var k := |RecordSetHead(d)|;
            k + |line| <= |FormatRecordSet(d)| && FormatRecordSet(d)[k..k + |line|] == line
  {
    MiddleOfAppend(RecordSetHead(d), ManagedZoneLine(d.zone), RecordSetTail(d));
  }

  // ---------------------------------------------------------------------
  // TTL resolution

  /** The distinct TTLs of a group. */
  function Ttls(group: seq<DnsRecord>): set<int>
  {
    set r | r in group :: r.ttl
  }

  /** The TTLs of a group's records, in group order: the list `get_ttl`
      builds its set from. */
  function TtlList(group: seq<DnsRecord>): (ts: seq<int>)
    ensures |ts| == |group|
    ensures forall i :: 0 <= i < |group| ==> ts[i] == group[i].ttl
  {
    seq(|group|, i requires 0 <= i < |group| => group[i].ttl)
  }

  /** Python's `list(set(ts))[0]`: some element of `ts`. Which one depends
      on the set's iteration order, and that order depends on the values and
      on the order they were inserted in, so the choice is a function of the
      whole list. */
  ghost predicate IsChoice(pick: seq<int> -> int)
  {
    forall ts: seq<int> :: ts != [] ==> pick(ts) in ts
  }

  /** The TTL a block is written with, and whether the group disagreed
      about it (which `get_ttl` reports as a warning). */
  datatype TtlChoice = TtlChoice(ttl: int, conflict: bool)

  /** A set with two different members has more than one element; a set with
      more than one element has a member other than any given one. */
  lemma TwoMembers(s: set<int>, a: int)
    requires a in s
    ensures |s| > 1 <==> exists b :: b in s && b != a
  {
    if exists b :: b in s && b != a {
      var b :| b in s && b != a;
      assert {a, b} <= s;
      assert |{a, b}| == 2;
      assert |{a, b}| <= |s| by {
        SubsetCard({a, b}, s);
      }
    } else {
      assert s == {a};
    }
  }

  lemma SubsetCard(a: set<int>, b: set<int>)
    requires a <= b
    ensures |a| <= |b|
  {
    assert b == a + (b - a);
  }

  /** `get_ttl`. A non-empty group gets the TTL of one of its records (which
      one is not determined when they differ); a group whose records agree
      gets their common TTL; the conflict flag is raised exactly when two
      records disagree. An empty group has no TTL at all. */
  function GetTtl(group: seq<DnsRecord>, pick: seq<int> -> int): (r: Option<TtlChoice>)
    requires IsChoice(pick)
    ensures r.None? <==> group == []
    ensures r.Some? ==> exists i :: 0 <= i < |group| && group[i].ttl == r.value.ttl
    ensures r.Some? ==> (r.value.conflict <==>
              exists i, j :: 0 <= i < |group| && 0 <= j < |group| && group[i].ttl != group[j].ttl)
    ensures r.Some? && (forall i :: 0 <= i < |group| ==> group[i].ttl == group[0].ttl) ==>
              r.value.ttl == group[0].ttl
  {
    var ttls := Ttls(group);
    if group == [] then
      None
    else
      assert group[0].ttl in ttls;
      var t := pick(TtlList(group));
      var conflict := |ttls| > 1;
      assert t in TtlList(group);
      assert exists i :: 0 <= i < |group| && group[i].ttl == t;
      TwoMembers(ttls, group[0].ttl);
      assert conflict <==> exists i, j :: 0 <= i < |group| && 0 <= j < |group| && group[i].ttl != group[j].ttl by {
        if conflict {
          var b :| b in ttls && b != group[0].ttl;
          var j :| 0 <= j < |group| && group[j].ttl == b;
          assert group[0].ttl != group[j].ttl;
        } else {
          forall i, j | 0 <= i < |group| && 0 <= j < |group|
            ensures group[i].ttl == group[j].ttl
          {
            assert group[i].ttl in ttls && group[j].ttl in ttls;
          }
        }
      }
      Some(TtlChoice(t, conflict))
  }

  // ---------------------------------------------------------------------
  // Renderers

  /** A renderer's failure, standing for the exception the original raises:
      indexing the first record of an empty group, a CNAME group that does
      not hold exactly one record, an MX record without a priority. */
  datatype RenderError = EmptyGroup | MultipleCname(count: nat) | MissingPriority(name: string)

  /** A diagnostic the export reports besides the file. */
  datatype Warning = TtlConflict(rtype: string, name: string, chosen: int)
                   | UnsupportedType(rtype: string)

  /** A rendered group: the declaration and the warnings its rendering
      logged. */
  datatype Block = Block(decl: RecordSet, warnings: seq<Warning>)

  /** The resource identifier of a host's declarations: its fully-qualified
      name with the literal zone, sanitised. */
  function ResourceName(host: string, zone: string): (r: string)
    ensures '.' !in r && '_' !in r
  {
    SanitizeTfResourceName(GodaddyToUrl(host, zone, false, false, false))
  }

  /** Two hosts that differ only by an underscore, such as `_dmarc` and
      `dmarc`, receive the same resource identifier, so their declarations
      of one type share a Terraform resource label. */
  lemma ResourceNameCollision(x: string, y: string, zone: string)
    requires x + y != Apex
    ensures ResourceName(x + "_" + y, zone) == ResourceName(x + y, zone)
  {
    assert x + "_" + y != Apex by {
      assert |x + "_" + y| != 1 || (x + "_" + y)[0] == '_';
    }
    assert x + "_" + y + "." + zone == x + "_" + (y + "." + zone);
    assert x + y + "." + zone == x + (y + "." + zone);
    SanitizeMergesUnderscore(x, y + "." + zone);
  }

  /** The `name` attribute: the host relative to the managed zone's
      `dns_name`. */
  function RecordUrl(host: string, zone: string): string
  {
    GodaddyToUrl(host, zone, false, false, true)
  }

  /** `d` is the declaration of `host`'s records of `kind` in `zone`. */
  predicate Declares(d: RecordSet, kind: RecordKind, host: string, zone: string)
  {
    d.kind == kind && d.host == host && d.zone == zone
  }

  /** The TTL of a non-empty group as `get_ttl` resolves it: the TTL of one
      of its records, with a warning naming the TTL written exactly when the
      records disagree. */
  predicate TtlResolved(b: Block, kind: RecordKind, group: seq<DnsRecord>)
    requires group != []
  {
    (exists i :: 0 <= i < |group| && group[i].ttl == b.decl.ttl)
    && (b.warnings == [] <==> forall i :: 0 <= i < |group| ==> group[i].ttl == group[0].ttl)
    && (b.warnings != [] ==> b.warnings == [TtlConflict(TypeName(kind), group[0].name, b.decl.ttl)])
  }

  /** A block whose TTL comes from `get_ttl`. */
  function TtlBlock(kind: RecordKind, group: seq<DnsRecord>, zone: string, pick: seq<int> -> int,
                    entries: seq<string>, sep: string): (b: Block)
    requires IsChoice(pick) && group != []
    ensures Declares(b.decl, kind, group[0].name, zone)
    ensures b.decl.entries == entries && b.decl.sep == sep
    ensures TtlResolved(b, kind, group)
  {
    var c := GetTtl(group, pick).value;
    Block(RecordSet(kind, group[0].name, zone, c.ttl, entries, sep),
          if c.conflict then [TtlConflict(TypeName(kind), group[0].name, c.ttl)] else [])
  }

  /** An A value as listed in `rrdatas`: quoted, followed by a comma. */
  function ARrdata(data: string): string
  {
    "\"" + data + "\","
  }

  /** Reads the value back from an `rrdatas` item of an A block. */
  function UnquoteARrdata(item: string): string
  {
    if |item| < 3 then "" else item[1..|item| - 2]
  }

  /** An A value is written verbatim: reading the item back gives it. */
  lemma ARrdataRoundTrip(data: string)
    ensures UnquoteARrdata(ARrdata(data)) == data
  {
    var item := ARrdata(data);
    assert item[1..|item| - 2] == data;
  }

  /** The items of an A block: one per record, in group order, each the
      record's value quoted and followed by a comma, so that it reads back
      verbatim. */
  function AEntries(group: seq<DnsRecord>): (es: seq<string>)
    ensures |es| == |group|
    ensures forall i :: 0 <= i < |group| ==> es[i] == ARrdata(group[i].data)
    ensures forall i :: 0 <= i < |group| ==> UnquoteARrdata(es[i]) == group[i].data
  {
    var es := seq(|group|, i requires 0 <= i < |group| => ARrdata(group[i].data));
    forall i | 0 <= i < |group|
      ensures UnquoteARrdata(es[i]) == group[i].data
    {
      ARrdataRoundTrip(group[i].data);
    }
    es
  }

  /** `terraform_A_record_set`: one quoted item per record, in group order,
      the value written verbatim; the TTL comes from `get_ttl`. */
  function RenderA(group: seq<DnsRecord>, zone: string, pick: seq<int> -> int)
    : (r: Result<Block, RenderError>)
    requires IsChoice(pick)
    ensures r.Failure? <==> group == []
    ensures r.Failure? ==> r.error == EmptyGroup
    ensures r.Success? ==> Declares(r.value.decl, A, group[0].name, zone)
                           && TtlResolved(r.value, A, group)
    ensures r.Success? ==> r.value.decl.entries == AEntries(group) && r.value.decl.sep == "\n\t"
  {
    if group == [] then Failure(EmptyGroup)
    else Success(TtlBlock(A, group, zone, pick, AEntries(group), "\n\t"))
  }

  /** `terraform_CNAME_record_set`: only a group of exactly one record can be
      rendered; it keeps that record's own TTL and points at the record's
      value made absolute (or at the zone, for `@`). */
  function RenderCname(group: seq<DnsRecord>, zone: string): (r: Result<Block, RenderError>)
    ensures r.Failure? <==> |group| != 1
    ensures r.Failure? ==> r.error == MultipleCname(|group|)
    ensures r.Success? ==> Declares(r.value.decl, CNAME, group[0].name, zone)
    ensures r.Success? ==> r.value.decl.ttl == group[0].ttl && r.value.warnings == []
    ensures r.Success? ==>
              r.value.decl.entries == ["\"" + GodaddyToUrl(group[0].data, zone, true, false, true) + "\""]
  {
    if |group| != 1 then Failure(MultipleCname(|group|))
    else
      var rec := group[0];
      var target := GodaddyToUrl(rec.data, zone, true, false, true);
      Success(Block(RecordSet(CNAME, rec.name, zone, rec.ttl, ["\"" + target + "\""], "\n\t"), []))
  }

  /** The `(priority, data)` pairs of an MX group, in group order, or `None`
      when some record carries no priority. */
  function MxPairs(group: seq<DnsRecord>): (r: Option<seq<MxEntry>>)
    ensures r.None? <==> exists i :: 0 <= i < |group| && group[i].priority.None?
    ensures r.Some? ==> |r.value| == |group|
    ensures r.Some? ==> forall i :: 0 <= i < |group| ==>
              r.value[i] == MxEntry(group[i].priority.value, group[i].data)
  {
    if group == [] then Some([])
    else if group[0].priority.None? then None
    else
      match MxPairs(group[1..])
      case None =>
        assert exists i :: 0 <= i < |group| - 1 && group[1..][i].priority.None?;
        None
      case Some(rest) =>
        Some([MxEntry(group[0].priority.value, group[0].data)] + rest)
  }

  /** An MX item: `"<priority> <data>."` followed by a comma. */
  function MxRrdata(e: MxEntry): string
  {
    "\"" + IntToString(e.priority) + " " + e.target + ".\","
  }

  /** Distinct `(priority, data)` pairs give distinct MX items: the
      priority ends at the first space, and the data fills the rest up to
      the closing `.",`. */
  lemma MxRrdataInjective(a: MxEntry, b: MxEntry)
    requires MxRrdata(a) == MxRrdata(b)
    ensures a == b
  {
    var pa, pb := IntToString(a.priority), IntToString(b.priority);
    var ta, tb := a.target + ".\",", b.target + ".\",";
    assert MxRrdata(a) == "\"" + (pa + " " + ta);
    assert MxRrdata(b) == "\"" + (pb + " " + tb);
    assert pa + " " + ta == MxRrdata(a)[1..] == pb + " " + tb;
    IntToStringNoSpace(a.priority);
    IntToStringNoSpace(b.priority);
    SplitAtSpace(pa, ta, pb, tb);
    IntToStringInjective(a.priority, b.priority);
    assert a.target == ta[..|ta| - 3] && b.target == tb[..|tb| - 3];
  }

  /** The items of an MX block, in the order of the given pairs. */
  function MxItems(pairs: seq<MxEntry>): (es: seq<string>)
    ensures |es| == |pairs|
    ensures forall i :: 0 <= i < |pairs| ==> es[i] == MxRrdata(pairs[i])
    ensures forall i, j :: 0 <= i < |pairs| && 0 <= j < |pairs| ==>
              (es[i] == es[j] <==> pairs[i] == pairs[j])
  {
    var es := seq(|pairs|, i requires 0 <= i < |pairs| => MxRrdata(pairs[i]));
    forall i, j | 0 <= i < |pairs| && 0 <= j < |pairs| && es[i] == es[j]
      ensures pairs[i] == pairs[j]
    {
      MxRrdataInjective(pairs[i], pairs[j]);
    }
    es
  }

  /** `terraform_MX_record_set`: one item per record, ordered by ascending
      priority, records of equal priority keeping their group order. */
  function RenderMx(group: seq<DnsRecord>, zone: string, pick: seq<int> -> int)
    : (r: Result<Block, RenderError>)
    requires IsChoice(pick)
    ensures group == [] ==> r == Failure(EmptyGroup)
    ensures group != [] ==>
              (r.Failure? <==> exists i :: 0 <= i < |group| && group[i].priority.None?)
    ensures group != [] && r.Failure? ==> r.error == MissingPriority(group[0].name)
    ensures r.Success? ==> Declares(r.value.decl, MX, group[0].name, zone)
                           && TtlResolved(r.value, MX, group)
    ensures r.Success? ==> r.value.decl.sep == "\n\t"
    ensures r.Success? ==> r.value.decl.entries == MxItems(SortByPriority(MxPairs(group).value))
  {
    if group == [] then Failure(EmptyGroup)
    else
      match MxPairs(group)
      case None => Failure(MissingPriority(group[0].name))
      case Some(pairs) => Success(TtlBlock(MX, group, zone, pick, MxItems(SortByPriority(pairs)), "\n\t"))
  }

  /** The MX items list every record's pair once, lowest priority first, and
      records of one priority in the order the registrar returned them: the
      items are those of any stable sort of the group's pairs. */
  lemma RenderMxOrder(group: seq<DnsRecord>, zone: string, pick: seq<int> -> int,
                      pairs: seq<MxEntry>, sorted: seq<MxEntry>)
    requires IsChoice(pick)
    requires group != [] && MxPairs(group) == Some(pairs)
    requires SortedByPriority(sorted)
    requires forall p :: WithPriority(sorted, p) == WithPriority(pairs, p)
    ensures RenderMx(group, zone, pick).Success?
    ensures RenderMx(group, zone, pick).value.decl.entries == MxItems(sorted)
  {
    SortMatchesAnyStableSort(pairs, sorted);
  }

  /** The separator between TXT items. */
  const TxtSeparator: string := ",\n\t"

  /** The items of a TXT block: one converted string per record, in group
      order, of the value kept verbatim, except that `@` stands for the
      zone. */
  function TxtItems(group: seq<DnsRecord>, zone: string): (es: seq<string>)
    ensures |es| == |group|
    ensures forall i :: 0 <= i < |group| ==>
              es[i] == TxtLiteral(if group[i].data == Apex then zone else group[i].data)
  {
    seq(|group|, i requires 0 <= i < |group| =>
          TxtLiteral(GodaddyToUrl(group[i].data, zone, true, true, false)))
  }

  /** `terraform_TXT_record_set`: one converted string per record, in group
      order, joined by a comma, a newline and a tab. */
  function RenderTxt(group: seq<DnsRecord>, zone: string, pick: seq<int> -> int)
    : (r: Result<Block, RenderError>)
    requires IsChoice(pick)
    ensures r.Failure? <==> group == []
    ensures r.Failure? ==> r.error == EmptyGroup
    ensures r.Success? ==> Declares(r.value.decl, TXT, group[0].name, zone)
                           && TtlResolved(r.value, TXT, group)
    ensures r.Success? ==> r.value.decl.entries == TxtItems(group, zone)
                           && r.value.decl.sep == TxtSeparator
  {
    if group == [] then Failure(EmptyGroup)
    else Success(TtlBlock(TXT, group, zone, pick, TxtItems(group, zone), TxtSeparator))
  }

  /** The renderer of a kind. */
  function RenderGroup(kind: RecordKind, group: seq<DnsRecord>, zone: string,
                       pick: seq<int> -> int): (r: Result<Block, RenderError>)
    requires IsChoice(pick)
    ensures r.Success? ==> group != [] && Declares(r.value.decl, kind, group[0].name, zone)
    ensures r.Success? ==> forall w :: w in r.value.warnings ==> w.TtlConflict?
    ensures r.Failure? && kind == CNAME ==> r.error.MultipleCname?
    ensures r.Failure? && kind == MX && group != [] ==> r.error.MissingPriority?
  {
    match kind
    case A => RenderA(group, zone, pick)
    case CNAME => RenderCname(group, zone)
    case MX => RenderMx(group, zone, pick)
    case TXT => RenderTxt(group, zone, pick)
  }

  /** A non-empty group fails to render only as a CNAME group of several
      records or an MX group with a record lacking its priority. */
  lemma RenderGroupFails(kind: RecordKind, group: seq<DnsRecord>, zone: string,
                         pick: seq<int> -> int)
    requires IsChoice(pick)
    requires group != []
    ensures RenderGroup(kind, group, zone, pick).Failure? <==>
              (kind == CNAME && |group| != 1)
              || (kind == MX && exists i :: 0 <= i < |group| && group[i].priority.None?)
  {
  }
}

=== FILE: results.dfy ===
/** Failure-compatible wrappers used throughout the model: an optional value
    and a value-or-error result, both usable with `:-`. */
module Results {

  datatype Option<+T> = None | Some(value: T) {

    predicate IsFailure() {
      None?
    }

    function PropagateFailure<U>(): Option<U>
      requires None?
    {
      None
    }

    function Extract(): T
      requires Some?
    {
      value
    }
  }

  datatype Result<+R, +E> = Success(value: R) | Failure(error: E) {

    predicate IsFailure() {
      Failure?
    }

    function PropagateFailure<U>(): Result<U, E>
      requires Failure?
    {
      Failure(error)
    }

    function Extract(): R
      requires Success?
    {
      value
    }
  }

  /** The values of `rs` when every one succeeded, or else the error of the
      first failure: what a loop that stops at the first exception gives. */
  function Collect<R, E>(rs: seq<Result<R, E>>): (r: Result<seq<R>, E>)
    ensures r.Success? <==> forall i :: 0 <= i < |rs| ==> rs[i].Success?
    ensures r.Success? ==> |r.value| == |rs| && forall i :: 0 <= i < |rs| ==> r.value[i] == rs[i].value
    ensures r.Failure? ==> exists i :: 0 <= i < |rs| && rs[i] == Failure(r.error)
                                       && forall j :: 0 <= j < i ==> rs[j].Success?
  {
    if rs == [] then Success([])
    else
      var first :- rs[0];
      var rest :- Collect(rs[1..]);
      Success([first] + rest)
  }
}

=== FILE: text.dfy ===
/** String primitives the exporter builds on: the character-level
    `str.replace`, `str.rstrip` and `str.join` of the original program, and the
    decimal rendering of integers used by its f-strings. */
module Text {

  /** `s.replace(a, b)` for single characters `a` and `b`. */
  function ReplaceChar(s: string, a: char, b: char): (r: string)
    ensures |r| == |s|
    ensures forall i :: 0 <= i < |s| ==> r[i] == (if s[i] == a then b else s[i])
  {
    if s == [] then [] else [if s[0] == a then b else s[0]] + ReplaceChar(s[1..], a, b)
  }

  /** Number of occurrences of `c` in `s`. */
  function Count(s: string, c: char): nat
  {
    if s == [] then 0 else (if s[0] == c then 1 else 0) + Count(s[1..], c)
  }

  /** `s.replace(c, "")`: every occurrence of `c` is removed, everything else
      stays in order. */
  function DeleteChar(s: string, c: char): (r: string)
    ensures c !in r
    ensures |r| == |s| - Count(s, c)
    ensures forall x :: x in r ==> x in s
  {
    if s == [] then [] else (if s[0] == c then [] else [s[0]]) + DeleteChar(s[1..], c)
  }

  /** Deleting a character commutes with concatenation. */
  lemma {:induction false} DeleteCharAppend(a: string, b: string, c: char)
    ensures DeleteChar(a + b, c) == DeleteChar(a, c) + DeleteChar(b, c)
  {
    if a == [] {
      assert a + b == b;
    } else {
      assert (a + b)[1..] == a[1..] + b;
      DeleteCharAppend(a[1..], b, c);
    }
  }

  /** Deleting `c` leaves `s` untouched exactly when `c` does not occur in it. */
  lemma {:induction false} DeleteCharFixpoint(s: string, c: char)
    ensures DeleteChar(s, c) == s <==> c !in s
  {
    if s != [] {
      DeleteCharFixpoint(s[1..], c);
      if s[0] != c {
        assert c in s <==> c in s[1..] by {
          assert s == [s[0]] + s[1..];
        }
      }
    }
  }

  /** `s.rstrip(c)` for a single character: the longest prefix of `s` that does
      not end in `c`, and everything it dropped is `c`. */
  function RStripChar(s: string, c: char): (r: string)
    ensures |r| <= |s| && r == s[..|r|]
    ensures r == [] || r[|r| - 1] != c
    ensures forall i :: |r| <= i < |s| ==> s[i] == c
  {
    if s == [] || s[|s| - 1] != c then s else RStripChar(s[..|s| - 1], c)
  }

  /** `sep.join(parts)`. */
  function Join(parts: seq<string>, sep: string): (r: string)
    ensures |parts| == 1 ==> r == parts[0]
    ensures |parts| == 0 ==> r == []
  {
    if parts == [] then []
    else if |parts| == 1 then parts[0]
    else parts[0] + sep + Join(parts[1..], sep)
  }

  /** Sum of the lengths of `parts`. */
  function TotalLength(parts: seq<string>): nat
  {
    if parts == [] then 0 else |parts[0]| + TotalLength(parts[1..])
  }

  /** A join is as long as its parts plus one separator between each
      neighbouring pair. */
  lemma {:induction false} JoinLength(parts: seq<string>, sep: string)
    requires parts != []
    ensures |Join(parts, sep)| == TotalLength(parts) + (|parts| - 1) * |sep|
  {
    if |parts| > 1 {
      JoinLength(parts[1..], sep);
    }
  }

  /** `"".join(parts)`. */
  function Concat(parts: seq<string>): (r: string)
    ensures |r| == TotalLength(parts)
  {
    if parts == [] then [] else parts[0] + Concat(parts[1..])
  }

  predicate IsDigit(c: char)
  {
    '0' <= c <= '9'
  }

  function DigitChar(d: nat): (c: char)
    requires d < 10
    ensures IsDigit(c)
  {
    ['0', '1', '2', '3', '4', '5', '6', '7', '8', '9'][d]
  }

  function DigitValue(c: char): nat
    requires IsDigit(c)
  {
    (c as int - '0' as int) as nat
  }

  /** Value of a string of decimal digits, most significant first. */
  function DecimalValue(s: string): nat
    requires forall i :: 0 <= i < |s| ==> IsDigit(s[i])
  {
    if s == [] then 0 else 10 * DecimalValue(s[..|s| - 1]) + DigitValue(s[|s| - 1])
  }

  /** Python's `str(n)` for a non-negative integer: decimal digits, no
      leading zero except for zero itself, reading back as `n`. */
  function NatToString(n: nat): (r: string)
    ensures r != []
    ensures forall i :: 0 <= i < |r| ==> IsDigit(r[i])
    ensures r[0] == '0' ==> n == 0
    ensures DecimalValue(r) == n
  {
    if n < 10 then
      assert DigitValue(DigitChar(n)) == n;
      [DigitChar(n)]
    else
      var r := NatToString(n / 10) + [DigitChar(n % 10)];
      assert r[..|r| - 1] == NatToString(n / 10);
      assert DigitValue(DigitChar(n % 10)) == n % 10;
      r
  }

  /** Python's `str(n)` for any integer, as the f-strings render TTLs and MX
      priorities. */
  function IntToString(n: int): (r: string)
    ensures r != []
    ensures r[0] == '-' <==> n < 0
    ensures n >= 0 ==> forall i :: 0 <= i < |r| ==> IsDigit(r[i])
    ensures n >= 0 ==> DecimalValue(r) == n
    ensures n < 0 ==> r[1..] == NatToString(-n)
  {
    if n < 0 then "-" + NatToString(-n) else NatToString(n)
  }

  /** Distinct integers render as distinct strings. */
  lemma IntToStringInjective(m: int, n: int)
    requires IntToString(m) == IntToString(n)
    ensures m == n
  {
    if m < 0 {
      assert DecimalValue(NatToString(-m)) == DecimalValue(NatToString(-n));
    }
  }

  /** A rendered integer holds no space, so a space after it marks where
      it ends. */
  lemma IntToStringNoSpace(n: int)
    ensures ' ' !in IntToString(n)
  {
    var r := IntToString(n);
    if n < 0 {
      forall i | 1 <= i < |r|
        ensures r[i] != ' '
      {
        assert r[i] == NatToString(-n)[i - 1];
      }
    }
  }

  /** A space after a space-free prefix splits a string uniquely. */
  lemma SplitAtSpace(p: string, x: string, q: string, y: string)
    requires ' ' !in p && ' ' !in q
    requires p + " " + x == q + " " + y
    ensures p == q && x == y
  {
    var s := p + " " + x;
    // Both prefixes end at the first space of `s`.
    assert forall i :: 0 <= i < |p| ==> s[i] == p[i];
    assert forall i :: 0 <= i < |q| ==> s[i] == q[i];
    assert s[|p|] == ' ' && s[|q|] == ' ';
    assert |p| == |q|;
    assert p == s[..|p|] && q == s[..|q|];
    assert x == s[|p| + 1..] && y == s[|q| + 1..];
  }

  /** A string is the prefix of its concatenation with anything. */
  lemma PrefixOfAppend(a: string, b: string)
    ensures (a + b)[..|a|] == a
  {
  }

  /** `r` consists of `a`, `b`, `c`, `d` and `e`, in that order: each part
      sits at the offset the earlier parts' lengths give, and nothing else
      is in `r`. */
  predicate InOrder(r: string, a: string, b: string, c: string, d: string, e: string)
  {
    |r| == |a| + |b| + |c| + |d| + |e|
    && r[..|a|] == a && r[|a|..|a| + |b|] == b && r[|a| + |b|..|a| + |b| + |c|] == c
    && r[|a| + |b| + |c|..|r| - |e|] == d && r[|r| - |e|..] == e
  }

  lemma PartsOfAppend(a: string, b: string, c: string, d: string, e: string)
    ensures InOrder(a + b + c + d + e, a, b, c, d, e)
  {
    var r := a + b + c + d + e;
    assert r == a + (b + (c + (d + e)));
    assert r[|a|..] == b + (c + (d + e));
    assert r[|a| + |b|..] == c + (d + e);
    assert r[|a| + |b| + |c|..] == d + e;
    assert r == (a + b + c + d) + e;
  }

  /** The middle part of a concatenation of three, by position. */
  lemma MiddleOfAppend(a: string, b: string, c: string)
    ensures |a| + |b| <= |a + b + c| && (a + b + c)[|a|..|a| + |b|] == b
  {
    assert a + b + c == a + (b + c);
    assert (a + b + c)[|a|..] == b + c;
  }
}

=== FILE: txt.dfy ===
/** `convert_data_for_TXT`: a TXT payload is wrapped in escaped quotes and,
    because one quoted TXT string may hold at most 255 characters, cut into
    255-character pieces separated by `\" \"`. */
module TxtChunking {
  import opened Text

  /** Written between consecutive pieces: backslash, quote, space, backslash,
      quote. */
  const TxtDelimiter: string := "\\\" \\\""

  function Min(a: int, b: int): int { if a <= b then a else b }

  /** The payload framed as `\"<data>\""`. Embedded quotes are not escaped. */
  function QuoteTxt(data: string): (w: string)
    ensures |w| == |data| + 5
    ensures w[..2] == "\\\"" && w[2..|w| - 3] == data && w[|w| - 3..] == "\\\"\""
  {
    "\\\"" + data + "\\\"\""
  }

  /** The piece of `w` that starts at `start`: at most 255 characters, the
      most one quoted TXT string may hold. */
  function PieceAt(w: string, start: nat): (p: string)
    requires start < |w|
    ensures 1 <= |p| <= 255
  {
    w[start..Min(start + 255, |w|)]
  }

  /** The consecutive pieces of `w` from offset `start` on; only the last may
      be shorter than 255 characters, none is empty, and together they are
      the rest of `w`. */
  function ChunksFrom(w: string, start: nat): (r: seq<string>)
    ensures start <= |w| ==> Concat(r) == w[start..]
    ensures r == [] <==> start >= |w|
    ensures forall i :: 0 <= i < |r| - 1 ==> |r[i]| == 255
    ensures r != [] ==> 1 <= |r[|r| - 1]| <= 255
    decreases |w| - start
  {
    if start >= |w| then []
    else
      var rest := ChunksFrom(w, start + 255);
      assert ([PieceAt(w, start)] + rest)[1..] == rest;
      assert start + 255 < |w| ==>
        w[start..] == PieceAt(w, start) + w[start + 255..];
      [PieceAt(w, start)] + rest
  }

  /** The pieces of all of `w`. */
  function Chunks(w: string): seq<string>
  {
    ChunksFrom(w, 0)
  }

  /** There are `ceil(|w| / 255)` pieces. */
  lemma ChunkCount(w: string)
    ensures |Chunks(w)| == (|w| + 255 - 1) / 255
  {
    ChunkCountFrom(w, 0);
  }

  lemma {:induction false} ChunkCountFrom(w: string, start: nat)
    requires start <= |w|
    ensures |ChunksFrom(w, start)| == (|w| - start + 255 - 1) / 255
    decreases |w| - start
  {
    if start + 255 < |w| {
      ChunkCountFrom(w, start + 255);
    }
  }

  /** Piece `i` starts at offset `255 * i` of `w`. */
  lemma {:induction false} ChunkAt(w: string, start: nat, i: nat)
    requires i < |ChunksFrom(w, start)|
    ensures start + 255 * i < |w|
    ensures ChunksFrom(w, start)[i] == PieceAt(w, start + 255 * i)
    decreases i
  {
    var r := ChunksFrom(w, start);
    assert start < |w|;
    assert r == [PieceAt(w, start)] + ChunksFrom(w, start + 255);
    if i > 0 {
      ChunkAt(w, start + 255, i - 1);
      assert start + 255 + 255 * (i - 1) == start + 255 * i;
      assert r[i] == ChunksFrom(w, start + 255)[i - 1] == PieceAt(w, start + 255 * i);
    } else {
      assert r[0] == PieceAt(w, start);
    }
  }

  lemma JoinChunksLast(w: string, start: nat)
    requires start < |w| <= start + 255
    ensures Join(ChunksFrom(w, start), TxtDelimiter) == w[start..]
  {
  }

  lemma JoinChunksStep(w: string, start: nat)
    requires start + 255 < |w|
    ensures Join(ChunksFrom(w, start), TxtDelimiter)
         == w[start..start + 255] + TxtDelimiter + Join(ChunksFrom(w, start + 255), TxtDelimiter)
  {
    var rest := ChunksFrom(w, start + 255);
    assert ChunksFrom(w, start)[1..] == rest;
  }

  lemma Reassociate(x: string, a: string, b: string, c: string)
    ensures (x + a + b) + c == x + (a + b + c)
  {
  }

  /** The text `convert_data_for_TXT` returns: an opening quote followed by
      the pieces of the framed payload joined by the delimiter. Its length
      is the framed payload's plus five per delimiter, and a framed payload
      of at most 255 characters is not split at all. */
  function TxtLiteral(data: string): (r: string)
    ensures var w := QuoteTxt(data);
            |r| == 1 + |w| + |TxtDelimiter| * (|Chunks(w)| - 1)
    ensures r[0] == '"'
    ensures |QuoteTxt(data)| <= 255 ==> r == "\"" + QuoteTxt(data)
  {
    var w := QuoteTxt(data);
    JoinLength(Chunks(w), TxtDelimiter);
    assert |w| <= 255 ==> Join(Chunks(w), TxtDelimiter) == w by {
      if |w| <= 255 {
        JoinChunksLast(w, 0);
      }
    }
    "\"" + Join(Chunks(w), TxtDelimiter)
  }

  /** `convert_data_for_TXT`, with the loop of the original: copy up to 255
      characters, advance by 255, and write the delimiter only if more
      characters remain. */
  method ConvertDataForTxt(origData: string) returns (tgt: string)
    ensures tgt == TxtLiteral(origData)
  {
    var w := QuoteTxt(origData);
    ghost var full := "\"" + Join(Chunks(w), TxtDelimiter);
    var idx := 0;
    tgt := "\"";
    while idx < |w|
      invariant 0 <= idx
      invariant idx < |w| ==> tgt + Join(ChunksFrom(w, idx), TxtDelimiter) == full
      invariant idx >= |w| ==> tgt == full
      decreases |w| - idx
    {
      var piece := w[idx..Min(idx + 255, |w|)];
      if idx + 255 < |w| {
        JoinChunksStep(w, idx);
        Reassociate(tgt, piece, TxtDelimiter, Join(ChunksFrom(w, idx + 255), TxtDelimiter));
      } else {
        JoinChunksLast(w, idx);
      }
      tgt := tgt + piece;
      idx := idx + 255;
      if idx < |w| {
        tgt := tgt + TxtDelimiter;
      }
    }
  }

  /** What lies at offset `a` of `out[k..]` lies at offset `k + a` of `out`. */
  lemma ShiftedSlice(out: string, rest: string, k: nat, a: nat, p: string)
    requires k <= |out| && out[k..] == rest
    requires a + |p| <= |rest| && rest[a .. a + |p|] == p
    ensures k + a + |p| <= |out| && out[k + a .. k + a + |p|] == p
  {
    assert out[k + a .. k + a + |p|] == rest[a .. a + |p|];
  }

  /** The joined pieces from `start` on, unfolded one piece at a time as the
      loop writes them. */
  function JoinedFrom(w: string, start: nat): string
    requires start < |w|
    decreases |w| - start
  {
    if start + 255 >= |w| then w[start..]
    else w[start..start + 255] + TxtDelimiter + JoinedFrom(w, start + 255)
  }

  lemma {:induction false} JoinedFromIsJoin(w: string, start: nat)
    requires start < |w|
    ensures JoinedFrom(w, start) == Join(ChunksFrom(w, start), TxtDelimiter)
    decreases |w| - start
  {
    if start + 255 >= |w| {
      JoinChunksLast(w, start);
    } else {
      JoinChunksStep(w, start);
      JoinedFromIsJoin(w, start + 255);
    }
  }

  /** The framed payload sits in the output at fixed places: piece `i`, the
      characters from offset `from == start + 255 * i`, starts at offset
      `260 * i` of the output, since each earlier piece is followed by the
      five-character delimiter. */
  lemma {:induction false} PiecePlacement(w: string, start: nat, i: nat, from: nat)
    requires from == start + 255 * i && from < |w|
    ensures var out := JoinedFrom(w, start);
            260 * i + |PieceAt(w, from)| <= |out|
            && out[260 * i .. 260 * i + |PieceAt(w, from)|] == PieceAt(w, from)
    decreases i
  {
    if i == 0 {
      if start + 255 < |w| {
        PrefixOfAppend(w[start..start + 255], TxtDelimiter + JoinedFrom(w, start + 255));
      }
    } else {
      var out := JoinedFrom(w, start);
      var rest := JoinedFrom(w, start + 255);
      assert out[260..] == rest;
      PiecePlacement(w, start + 255, i - 1, from);
      ShiftedSlice(out, rest, 260, 260 * (i - 1), PieceAt(w, from));
    }
  }

  /** When another piece follows piece `i`, the delimiter fills the five
      characters right after it. */
  lemma {:induction false} DelimiterPlacement(w: string, start: nat, i: nat)
    requires start + 255 * i + 255 < |w|
    ensures var out := JoinedFrom(w, start);
            260 * i + 260 <= |out| && out[260 * i + 255 .. 260 * i + 260] == TxtDelimiter
    decreases i
  {
    if i > 0 {
      var out := JoinedFrom(w, start);
      var rest := JoinedFrom(w, start + 255);
      assert out[260..] == rest;
      DelimiterPlacement(w, start + 255, i - 1);
      ShiftedSlice(out, rest, 260, 260 * (i - 1) + 255, TxtDelimiter);
    }
  }

  /** After the opening quote, the output is the framed payload unfolded
      piece by piece. */
  lemma TxtLiteralBody(data: string)
    ensures 1 <= |TxtLiteral(data)| && TxtLiteral(data)[1..] == JoinedFrom(QuoteTxt(data), 0)
  {
    JoinedFromIsJoin(QuoteTxt(data), 0);
    assert TxtLiteral(data) == "\"" + Join(Chunks(QuoteTxt(data)), TxtDelimiter);
  }

  /** The exact chunk boundaries of `convert_data_for_TXT`'s output: after
      the opening quote, piece `i` of the framed payload (its characters from
      offset `255 * i`) occupies the output from offset `1 + 260 * i`, and
      the delimiter follows it whenever another piece does. */
  lemma TxtLiteralLayout(data: string, i: nat)
    requires 255 * i < |QuoteTxt(data)|
    ensures var w := QuoteTxt(data);
            var out := TxtLiteral(data);
            var p := PieceAt(w, 255 * i);
            1 + 260 * i + |p| <= |out| && out[1 + 260 * i .. 1 + 260 * i + |p|] == p
            && (255 * i + 255 < |w| ==>
                  1 + 260 * i + 260 <= |out|
                  && out[1 + 260 * i + 255 .. 1 + 260 * i + 260] == TxtDelimiter)
  {
    TxtLiteralBody(data);
    QuotedLayout(TxtLiteral(data), QuoteTxt(data), i);
  }

  /** The layout of any text that is a quote followed by the pieces of `w`
      unfolded one by one. */
  lemma QuotedLayout(out: string, w: string, i: nat)
    requires 255 * i < |w|
    requires 1 <= |out| && out[1..] == JoinedFrom(w, 0)
    ensures var p := PieceAt(w, 255 * i);
            1 + 260 * i + |p| <= |out| && out[1 + 260 * i .. 1 + 260 * i + |p|] == p
            && (255 * i + 255 < |w| ==>
                  1 + 260 * i + 260 <= |out|
                  && out[1 + 260 * i + 255 .. 1 + 260 * i + 260] == TxtDelimiter)
  {
    var body := JoinedFrom(w, 0);
    PiecePlacement(w, 0, i, 255 * i);
    ShiftedSlice(out, body, 1, 260 * i, PieceAt(w, 255 * i));
    if 255 * i + 255 < |w| {
      DelimiterPlacement(w, 0, i);
      ShiftedSlice(out, body, 1, 260 * i + 255, TxtDelimiter);
    }
  }

  /** A framed payload of 256 to 510 characters splits once, after its
      255th character. */
  lemma TxtTwoChunks(data: string)
    requires 255 < |QuoteTxt(data)| <= 2 * 255
    ensures var w := QuoteTxt(data);
            TxtLiteral(data) == "\"" + w[..255] + TxtDelimiter + w[255..]
  {
    var w := QuoteTxt(data);
    JoinChunksStep(w, 0);
    JoinChunksLast(w, 255);
  }
}
